=== FILE: README.md ===
# Vera frontend: a Dafny model of the client's state logic

Vera is a chat client written in React. A user logs in, sees their conversations, and talks with an AI assistant in a chat view. Messages can be typed or recorded as voice. This project models the parts of the client that carry logic of their own:

- **The app shell** (`App`, over `Entities`). It holds the page machine with four pages (login, signup, conversations list, chat), the logged-in user, the selected conversation, and the browser-storage slot that keeps the user across reloads. It also counts the conversation creations still waiting for the backend, because their answers reach the shell after the list may have been left. Each pending create belongs to the list instance that sent it; once that list is unmounted, or shows another user's conversations, the create is orphaned.
- **The conversation list** (`ConversationsList`, over `Preview`). It loads and creates conversations and decides what the list body shows. Each card has a preview line and a title. The preview removes markdown with four regular-expression passes and is then truncated.
  - `Preview` models each global replacement as a left-to-right rewrite.
  - `Preview.FindClose` models the lazy quantifier `*?`, and `Preview.LinkTail` models the backtracking of the link pattern.
- **The chat view** (`Chat`, `ChatTraces`). It covers:
  - the message history;
  - the text input and the blank-input guard;
  - the single `loading` flag and the error banner;
  - the voice-recording pipeline: permission prompt, capture, recorder stop, upload;
  - the disabled-control rules, the recording clock (`TimeFormat`) and the textarea height clamp.

  Each asynchronous handler is split into two functions: the part that runs when the handler is invoked, and the part that runs when its request settles. The settled value (`Outcome`: `Ok(value)` or `Err(message)`) is a parameter. `ChatTraces` runs these functions as events of a single-threaded event loop. It proves what holds after every run, and it exhibits runs the disabled controls do not rule out. Its traces run the CORRECTED microphone handler `Chat.CaptureDone`, which releases the stream when the recorder fails; the handler as written is `Chat.CaptureDoneAsWritten` (see Findings).
- **Helpers** (`Wrappers`, `Js`, `Text`): promise outcomes, JavaScript truthiness, `||`, `Math.min` and `Math.max`, `trim` with its whitespace set, decimal digits, and `padStart`.

Backend answers enter only as event parameters. Nothing in the model performs I/O.

## Model

| member | source | states |
|---|---|---|
| TimeFormat.FormatTime | src/components/Chat.js:398-402 | the display ends in a colon and two characters and is at least five long; TimeFormat.FormatTimeFields and TimeFormat.FormatTimeRoundTrip characterise it fully |
| TimeFormat.FormatTimeFields | src/components/Chat.js:398-402 | the display is a digit run, a colon and exactly two digits; the seconds field reads back as `seconds % 60`, which is below 60, and the minutes field as `seconds / 60` |
| TimeFormat.FormatTimeRoundTrip | src/components/Chat.js:398-402 | reading the display back as minutes and seconds gives the elapsed seconds, so no two elapsed times are shown alike |
| TimeFormat.FormatTimeLength | src/components/Chat.js:398-402 | the display is exactly five characters (`mm:ss`) if and only if fewer than 6000 seconds have elapsed |
| Text.Trim | src/components/Chat.js:238-240 | `trim` removes exactly the maximal whitespace runs at both ends: the result starts and ends with non-whitespace, and it is empty exactly when the input is blank |
| Text.TrimUnique | src/components/Chat.js:238-240 | any decomposition into blank, trimmed core and blank is the one `trim` finds |
| Chat.TextareaHeight | src/components/Chat.js:172-177 | the height lies between the breakpoint-dependent minimum (44 or 52) and 120, follows the content height inside that range, and sticks to the nearer bound outside it |
| Chat.TextareaHeightMonotone | src/components/Chat.js:172-177 | more content or a wider screen never lowers the textarea |
| Chat.Open | src/components/Chat.js:213-233 | a freshly mounted chat has an empty history and starts its history load, raising `loading`, exactly when the conversation id is truthy |
| Chat.LoadDone | src/components/Chat.js:214-228 | a settled load REPLACES the history with the response in order; a failed one keeps it and shows "Failed to load messages: " and the message; `loading` drops either way and the voice pipeline is untouched |
| Chat.Type | src/components/Chat.js:576 | typing replaces the input and touches neither the history, nor `loading`, nor the voice pipeline |
| Chat.Send | src/components/Chat.js:236-262 | blank input changes nothing; otherwise the input is cleared, exactly one `User` message with the trimmed text is appended before any answer, the banner clears, `loading` rises and one request is pending |
| Chat.SendDone | src/components/Chat.js:264-275 | success appends exactly one `AI` message with the reply after an unchanged history; failure removes and adds nothing and shows the error or "Failed to send message"; `loading` drops either way |
| Chat.StartRecording | src/components/Chat.js:310-312 | pressing the mic while idle opens the permission prompt and changes nothing visible |
| Chat.CaptureDoneAsWritten | src/components/Chat.js:310-388 | the microphone request as written: a grant starts recording with the clock at 0; a refusal shows "Microphone access error: " and the message; a recorder failure after the grant resets the clock and leaves the stream open |
| Chat.CaptureDone | src/components/Chat.js:310-388 | as above, except that a recorder failure after the grant also releases the stream |
| Chat.Tick | src/components/Chat.js:330-332 | each interval tick adds one second to the clock while the recorder runs and changes nothing else shown |
| Chat.StopRecording | src/components/Chat.js:390-396 | stopping has no effect unless recording; otherwise recording ends and the recorder's `onstop` is pending |
| Chat.MicClick | src/components/Chat.js:609 | the mic button stops a recording and otherwise starts a capture |
| Chat.RecorderStopped | src/components/Chat.js:335-342 | the recorder's `onstop` raises `loading`, clears the banner and starts the upload, keeping the history |
| Chat.VoiceDone | src/components/Chat.js:349-373 | success appends exactly two messages, the `User` transcript then the `AI` reply, each replaced by "[No transcript]" or "[No AI response]" when empty; failure appends none and shows "Voice processing failed: " and the message; either way `loading` drops and the stream is released |
| Chat.ControlRules | src/components/Chat.js:579-610 | send is enabled exactly when the textarea is enabled and the input is not blank; recording closes text entry but leaves the mic usable unless loading; loading closes all three |
| Chat.SendMatchesButton | src/components/Chat.js:236-238 | an enabled send button appends exactly the trimmed input; Enter on blank input, which the button would refuse, changes nothing |
| ChatTraces.CanFire | src/components/Chat.js:570-610 | typing, Enter and the mic button need nothing loading; typing and Enter also need no recording; the mic button outside a recording needs an idle pipeline (see Left out) |
| ChatTraces.RunInv | src/components/Chat.js:310-396 | with the corrected microphone handler, on every run of events `isRecording` holds exactly while the recorder runs, and a microphone stream is held exactly from the grant until the upload settles; the source as written breaks the second half (Findings) |
| ChatTraces.MicReleasedAfterAnyRun | src/components/Chat.js:369-373 | with the corrected microphone handler, after any run from a fresh chat view an idle pipeline holds no open stream and a recording always has one |
| ChatTraces.RecorderFailureLeavesMicOpen | src/components/Chat.js:384-387 | the handler as written breaks that invariant: after a recorder failure the pipeline is idle with the stream still open |
| ChatTraces.HistoryGrowsWithoutLoad | src/components/Chat.js:254-373 | except for a history load, no run of events removes or rewrites a message: the old history is a prefix of the new |
| ChatTraces.TextExchange | src/components/Chat.js:236-275 | a send and its answer leave the user's trimmed message followed by the reply, or only the user's message together with a non-empty error |
| ChatTraces.FirstExchange | src/components/Chat.js:213-270 | a chat opened for a truthy conversation id keeps text entry disabled until its load settles; once the load answers with no messages, typing a non-empty text with no surrounding whitespace and sending it yields the history [User text, AI reply] |
| ChatTraces.HelloExample | src/components/Chat.js:213-270 | in a new conversation (truthy id, load answering with no messages), sending "Hello" yields the history [User "Hello", AI reply] |
| ChatTraces.VoiceExchange | src/components/Chat.js:335-396 | stop, upload and settle append the transcript and the reply, or nothing on failure; the pipeline is then idle, nothing is loading and the stream is released |
| ChatTraces.RecordingWhileSending | src/components/Chat.js:579-610 | the disabled controls do not keep text and voice apart: a send made while the permission prompt is open leaves recording running with the text request pending |
| ChatTraces.StopRequested | src/components/Chat.js:310-396 | pressing the mic, granting, and pressing it again leaves the recorder stopping with nothing loading and no text request pending |
| ChatTraces.TextSettlesDuringUpload | src/components/Chat.js:236-372 | one shared `loading` flag: from any state where the recorder is stopping and nothing loads, a text sent before `onstop` whose answer settles during the voice upload re-enables text entry and the mic while the upload is still pending |
| ChatTraces.UploadPendingWithControlsEnabled | src/components/Chat.js:236-396 | the same interleaving from a fresh chat view: the whole seven-event run can happen and ends with the upload pending and the controls enabled |
| Preview.FindClose | src/components/ConversationsList.js:74-77 | the lazy `.*?` followed by a closing delimiter: a found closer lies wholly inside the text; Preview.FindCloseFirst and Preview.FindCloseAt pin it down as the first reachable one |
| Preview.FindCloseFirst | src/components/ConversationsList.js:74-77 | the lazy search finds the FIRST occurrence of the closing delimiter reachable through characters `.` accepts, and fails exactly when none is reachable |
| Preview.FindCloseAt | src/components/ConversationsList.js:74-77 | conversely, the first reachable occurrence is what the lazy search returns |
| Preview.MatchAt | src/components/ConversationsList.js:74-77 | a match starts with the pattern's opening character, and for the three group-keeping patterns it is replaced by the text right after the opening delimiter |
| Preview.MatchAtDelimited | src/components/ConversationsList.js:74-77 | bold, italic and fenced code match exactly when the text opens with the delimiter and a closing one is reachable; the match ends at the FIRST reachable closing delimiter (fenced code crossing line breaks), the group being everything in between, and "[Code Block]" replaces a fence |
| Preview.LinkScan | src/components/ConversationsList.js:76 | trying link texts that end at position i or later, a found link text ends no earlier than i and the whole link ends inside the text, at least the three characters "](" and ")" after the link text |
| Preview.LinkTail | src/components/ConversationsList.js:76 | the link text and the whole link end inside the text, and the target follows the text by at least the three characters "](" and ")" |
| Preview.LinkTailFirst | src/components/ConversationsList.js:76 | the backtracking of the link pattern: the link text ends at the FIRST "](" reachable without a line break whose target is closed by a reachable ")", the match ends at that ")", and without such a "](" there is no match |
| Preview.LinkTailAt | src/components/ConversationsList.js:76 | conversely, the first "](" reachable without a line break whose target is closed is where the link text ends, and the link ends at that target's ")" |
| Preview.Rewrite | src/components/ConversationsList.js:74-77 | a global replacement leaves text without the pattern's opening character exactly as it is; the bold, italic and link passes never lengthen the text; the code pass at most doubles it |
| Preview.Strip | src/components/ConversationsList.js:73-77 | the four passes in the source's order leave text without `*`, `[` and backticks as it is, and at most double any text; PreviewProperties.BoldLinkStrip, ShortMessageShownWhole and FencedMessageCutSilently show what the order and the code pass do |
| PreviewProperties.BoldUnwrap | src/components/ConversationsList.js:74 | `**x**` becomes `x` when x holds no `*` and no line break, and the scan resumes after it |
| PreviewProperties.ItalicUnwrap | src/components/ConversationsList.js:75 | `*x*` becomes `x` under the same conditions |
| PreviewProperties.LinkTailSpan | src/components/ConversationsList.js:76 | the link tail of `text](url)` spans exactly the text and the target |
| PreviewProperties.LinkUnwrap | src/components/ConversationsList.js:76 | `[text](url)` becomes `text` when text holds no `]`, url no `)`, and neither has a line break |
| PreviewProperties.CodeUnwrap | src/components/ConversationsList.js:77 | a fenced block becomes "[Code Block]" whatever it holds apart from backticks, line breaks included |
| PreviewProperties.BoldLinkStrip | src/components/ConversationsList.js:74-77 | because bold runs before link, `**[x](u)**` strips to `x` |
| PreviewProperties.RewriteKeepsLack | src/components/ConversationsList.js:74-76 | the group-keeping passes never introduce a character the text did not contain |
| PreviewProperties.ShortMessageShownWhole | src/components/ConversationsList.js:70-78 | a message of at most 60 characters without backticks is shown whole after stripping, without "..." |
| PreviewProperties.PlainPreview | src/components/ConversationsList.js:70-78 | the preview of markup-free text is its first 60 characters, plus "..." exactly when it is longer |
| PreviewProperties.PlainTitle | src/components/ConversationsList.js:167 | the title of a markup-free message is its first 25 characters, plus "..." exactly when it is longer |
| PreviewProperties.FencesBecomeBlocks | src/components/ConversationsList.js:77 | each empty fence pair turns its 6 characters into the 12 of "[Code Block]" |
| PreviewProperties.FencedMessageCutSilently | src/components/ConversationsList.js:77-78 | the "..." test reads the ORIGINAL length: a 36-character message of fences strips to 72 characters and is cut to 60 without "..." |
| Preview.GetPreview | src/components/ConversationsList.js:70-78 | a missing or empty message gives "New conversation"; otherwise the first at most 60 stripped characters, followed by "..." exactly when the original is longer than 60, so at most 63 characters |
| Preview.CardTitle | src/components/ConversationsList.js:167 | the first at most 25 characters of the preview, followed by "..." exactly when the latest message is longer than 25, so at most 28; "New Conversation" without a message |
| Preview.CardSubtitle | src/components/ConversationsList.js:174 | the preview, or "Start a new conversation" without a message |
| ConversationsList.RequestStarted | src/components/ConversationsList.js:13-15 | starting a load or a create raises `loading` and clears the banner, keeping the list |
| ConversationsList.LoadDone | src/components/ConversationsList.js:13-24 | success replaces the list with the response in backend order; failure keeps the list and shows the error; `loading` drops either way |
| ConversationsList.CreateDone | src/components/ConversationsList.js:26-37 | success selects exactly the created conversation; failure selects nothing and shows the error; the list is untouched and `loading` drops |
| ConversationsList.View | src/components/ConversationsList.js:119-179 | a placeholder exactly while loading with an empty list; an empty state exactly when idle with an empty list; otherwise one card per conversation, in order, keyed by its id |
| ConversationsList.LoadedListShown | src/components/ConversationsList.js:13-24 | after a successful non-empty load, the cards show exactly the loaded conversations in order, each title at most 28 characters |
| ConversationsList.FailedLoadKeepsCards | src/components/ConversationsList.js:19-20 | a failed reload shows the same cards as before, whether or not a load was shown as under way |
| ConversationsList.FirstRender | src/components/ConversationsList.js:5-11 | the first paint, before the mount effect starts the load, shows the invitation to start a conversation; once the load has started, the placeholder replaces it |
| App.Initial | src/App.jsx:8-10 | the app starts with no user, no conversation and the login page |
| App.Restore | src/App.jsx:13-19 | at start-up a stored user restores the session on the list page; without one, nothing changes |
| App.Login | src/App.jsx:21-25 | login and signup set the user, store the same user, and open the list |
| App.Logout | src/App.jsx:27-31 | logout clears the user and the stored copy and opens the login page, but keeps the selected conversation |
| App.Select | src/App.jsx:33-36 | selecting sets the conversation and opens the chat, leaving user and storage alone |
| App.Back | src/App.jsx:38-40 | going back opens the list and changes nothing else |
| App.GoTo | src/App.jsx:75-76 | the links between the two forms change only the page |
| App.ScreenOf | src/App.jsx:74-82 | the chat renders exactly on the chat page with a user and a conversation, the list exactly on the list page with a user, and each form on its page |
| App.CanFire | src/App.jsx:44-81 | every click comes from a control on screen: the main area is not empty, the list's select and create need a logged-in user, and logout needs the navigation bar with a user; the request completions are not clicks, so a login or signup answer may arrive on any screen, and a create answer settles whatever is shown, whether its list is still on screen or was left |
| App.StaleLoginReplacesSession | src/components/Login.js:18-24 | from any login screen with no create pending, a login answer that arrives after the user switched to the signup form and signed up as someone else still logs the first user in, on the list, replacing the session and its stored copy |
| App.StartCreate | src/components/ConversationsList.js:26-30 | the "New Chat" button adds one pending create and changes nothing else in the shell |
| App.Detach | src/App.jsx:74-82 | after every event, a create still counted as the current list's is pending only while the list is on screen for the same user; otherwise it is orphaned, and no request is lost or added |
| App.SettleCreateAsWritten | src/components/ConversationsList.js:30-31 | as written, a created conversation is selected and the chat page opened whatever is shown by then, even when the list that asked was left; a failure leaves page and conversation alone |
| App.SettleCreate | src/components/ConversationsList.js:30-31 | corrected: the created conversation opens only when the list that asked for it is still the one on screen; an orphaned create or a failure changes neither page nor conversation; either way one request fewer is outstanding |
| App.LateCreateEmptiesScreen | src/App.jsx:44-81 | as written, "New Chat" then Logout then the answer lands on the chat page with nobody logged in: nothing is rendered, the invariant is broken and only another orphaned answer or a login answer can fire; the corrected handler keeps the login form |
| App.OrphanAnswerStaysPut | src/components/ConversationsList.js:30-31 | corrected, in every state: the answer to a create whose list was left changes neither the page, nor the conversation, nor the user or the storage slot, nor what is on screen |
| App.ReturnedListIgnoresOldAnswer | src/components/ConversationsList.js:30-31 | "New Chat", a card, Back: the list shown is a new one and the old create is orphaned; as written its answer opens the created conversation, the corrected handler keeps the list with the card's conversation selected |
| App.ReloginIgnoresOldAnswer | src/components/ConversationsList.js:30-31 | "New Chat", Logout, login as any user v: as written the old answer opens the created conversation for v, the corrected handler keeps v's list |
| App.RunInv | src/App.jsx:21-82 | with the corrected create handler, after any run of events from a consistent state the stored user equals the user in memory, the forms show exactly when nobody is logged in, the chat page always has a conversation, the main area is never empty, and a create counted as the current list's is pending only while the list is on screen |
| App.AnyRunAfterBoot | src/App.jsx:8-82 | the same holds after any run from start-up, whatever the storage slot held |
| App.NavigationKeepsSession | src/App.jsx:33-40 | selecting, creating, going back and moving between the forms touch neither the user nor the storage slot |
| App.LogoutThenReload | src/App.jsx:13-31 | after logging out, a reload lands on the login page with no user |
| App.LoginThenReload | src/App.jsx:13-25 | after logging in, a reload restores the same user on the list |
| App.CreateOpensChat | src/components/ConversationsList.js:26-31 | "New Chat" answered while the list that asked is still shown opens the created conversation's chat, which starts with an empty history and loads its messages exactly when its id is truthy; the list's other pending creates are orphaned; late answers are the subject of App.LateCreateEmptiesScreen and App.OrphanAnswerStaysPut |

## Left out

- `src/api.js`: the HTTP calls are not part of this model. Their results are the `Outcome` parameters of the settle functions.
- The login and signup forms are not part of this model. They reach the shell only through `App.Login`. The link between the two forms stays enabled while a request runs (Login.js:117-122, Signup.js:113-118). A login or signup answer can therefore arrive on any screen, and `App.CanFire` lets it.
- Markdown rendering of AI messages (`markdownToSafeHTML`) is left out. It delegates to foreign libraries.
- Audio playback of the voice reply (`playAudio`) is left out. It uses the browser's audio API and changes only the banner on failure.
- Media capture is left out. `getUserMedia`, `MediaRecorder` and the recorded audio are platform objects; their outcome is the `Chat.Capture` parameter. The one-second interval is the `Tick` event.
- Message timestamps, `formatMessageTime` and `formatDate` are left out. They depend on the clock, locale and time zone.
- DOM effects are left out: scrolling, focus, resize, styles, and the typing indicator's key taken from the clock.
- The JSON encoding of the stored user is left out. The storage slot holds the user record itself.
- Lengths are counted in Unicode scalar values, while JavaScript's `length` and `substring` count UTF-16 code units. The two agree on text within the Basic Multilingual Plane.
- A conversation record's creation date is kept as uninterpreted text.
- A conversation load that settles after the user has moved to another conversation is not modelled. The source has no guard against it, and the model only pairs each start with its own completion.
- Chat.MicClick: requires a recording or an idle pipeline, so it does not model a click that starts a second capture in the three windows the ChatTraces.CanFire line below names. In those windows the source accepts the click because `loading` is false.
- ChatTraces.CanFire: the mic button starts a capture only from an idle pipeline. In the source, a click outside a recording and with `loading` false starts a second, overlapping capture in three windows: while the permission prompt is open, while the recorder's `onstop` is pending, and while the voice upload is pending after a text reply has cleared `loading` (the state ChatTraces.UploadPendingWithControlsEnabled reaches). Overlapping captures are not modelled.
- Leaving the chat view is not modelled. No effect of the chat cleans up the recorder, the one-second interval or the microphone stream (only the resize and scroll effects have cleanups, Chat.js:208-210 and 427-429), and the back button (Chat.js:436-437) is never disabled. So going back during a recording, or during the permission prompt followed by a grant, leaves the microphone open and the interval running. The invariants of ChatTraces hold only while the view stays mounted.
- A list that stays mounted while its user changes (a stale login answer arriving on the list screen) counts as a new list in `App.Detach`: its pending creates were sent for the previous user, so the corrected handler orphans them. The source keeps the same component instance in that case, and the as-written handler navigates regardless.
- App.CanFire: "New Chat" is allowed whenever the list is shown, although the list disables it while it loads. This admits more runs than the source, so the invariants proved over them still hold of the source's runs.
- Chat.SendDone: the reply is a string. A backend answer without a `message` field would append an `AI` message with no text.
- Chat.CaptureDoneAsWritten: when `start()` itself throws, the source also leaves the one-second interval running. The model records only the open stream.

## Findings

| source | as written | input that shows it | evidently intended | confidence | as-written member | corrected member |
|---|---|---|---|---|---|---|
| src/components/ConversationsList.js:30-31 | `handleCreate` awaits `createConversation` and then calls `onSelect(conv)` unconditionally | click "New Chat", click Logout (still enabled, App.jsx:58-67) before the answer, then the answer arrives: the page becomes "chat" with no user, App.jsx:80 renders nothing and the navigation bar is hidden (App.jsx:44) | the answer to a create whose list was left (unmounted, or now showing another user's conversations) does not navigate | medium, not executed | App.SettleCreateAsWritten, with App.LateCreateEmptiesScreen | App.SettleCreate, with App.OrphanAnswerStaysPut and App.RunInv |
| src/components/Chat.js:384-387 | the `catch` of `startRecording` only sets the error; the stream obtained from `getUserMedia` is not stopped | permission granted, then `new MediaRecorder(stream)` or `start()` throws (e.g. no supported audio format) | every failure path releases the microphone, as the `onstop` handler does at Chat.js:371-373 | medium, not executed | Chat.CaptureDoneAsWritten, with ChatTraces.RecorderFailureLeavesMicOpen | Chat.CaptureDone, with ChatTraces.RunInv and ChatTraces.MicReleasedAfterAnyRun |

=== FILE: app.dfy ===
/** The application shell: which page is shown, the logged-in user, the
    selected conversation, and the one browser-storage slot that keeps the
    user across reloads (`localStorage` key "user"). The stored value is
    modelled as the user itself; its JSON encoding is left out. */
module App {
  import opened Wrappers
  import opened Entities
  import ConversationsList
  import Chat

  datatype Page = LoginPage | SignupPage | ConversationsPage | ChatPage

  datatype AppState = AppState(
    user: Option<User>,
    conversation: Option<Conversation>,
    page: Page,
    stored: Option<User>,
    createsPending: nat,  // `createConversation` requests of the list on screen, not yet settled
    createsOrphaned: nat  // the same, sent by a list that has since been left
  )

  /** The state on first render, with whatever the storage slot holds. */
  function Initial(stored: Option<User>): (s: AppState)
    ensures s.user == None && s.conversation == None && s.page == LoginPage && s.stored == stored
    ensures s.createsPending == 0 && s.createsOrphaned == 0
  {
    AppState(None, None, LoginPage, stored, 0, 0)
  }

  /** The mount effect: a stored user restores the session and opens the
      list; without one the login page stays. */
  function Restore(s: AppState): (s': AppState)
    ensures s.stored.Some? ==> s'.user == s.stored && s'.page == ConversationsPage
    ensures s.stored.None? ==> s' == s
    ensures s'.stored == s.stored && s'.conversation == s.conversation
  {
    if s.stored.Some? then s.(user := s.stored, page := ConversationsPage) else s
  }

  /** The app as it stands after start-up. */
  function Boot(stored: Option<User>): AppState {
    Restore(Initial(stored))
  }

  /** `handleLogin`, used by both the login and the signup form: the user
      is set, saved in storage, and the list opens. */
  function Login(s: AppState, u: User): (s': AppState)
    ensures s'.user == Some(u) && s'.stored == Some(u) && s'.page == ConversationsPage
    ensures s'.conversation == s.conversation
  {
    s.(user := Some(u), stored := Some(u), page := ConversationsPage)
  }

  /** `handleLogout`: the user is cleared, so is the storage slot, and the
      login page opens. The selected conversation is NOT cleared. */
  function Logout(s: AppState): (s': AppState)
    ensures s'.user == None && s'.stored == None && s'.page == LoginPage
    ensures s'.conversation == s.conversation
  {
    s.(user := None, stored := None, page := LoginPage)
  }

  /** `handleSelectConversation`: the conversation is set and the chat
      opens; user and storage are untouched. */
  function Select(s: AppState, c: Conversation): (s': AppState)
    ensures s'.conversation == Some(c) && s'.page == ChatPage
    ensures s'.user == s.user && s'.stored == s.stored
  {
    s.(conversation := Some(c), page := ChatPage)
  }

  /** `handleBackToConversations`: only the page changes. */
  function Back(s: AppState): (s': AppState)
    ensures s'.page == ConversationsPage
    ensures s'.user == s.user && s'.conversation == s.conversation && s'.stored == s.stored
  {
    s.(page := ConversationsPage)
  }

  /** The links between the two forms: only the page changes. */
  function GoTo(s: AppState, p: Page): (s': AppState)
    ensures s'.page == p
    ensures s'.user == s.user && s'.conversation == s.conversation && s'.stored == s.stored
  {
    s.(page := p)
  }

  /** What the main area renders. The list needs a user, the chat a user
      and a conversation; otherwise nothing is rendered. */
  datatype Screen = LoginScreen | SignupScreen | ListScreen | ChatScreen | NoScreen

  function ScreenOf(s: AppState): (v: Screen)
    ensures v == ChatScreen <==> s.page == ChatPage && s.user.Some? && s.conversation.Some?
    ensures v == ListScreen <==> s.page == ConversationsPage && s.user.Some?
    ensures v == LoginScreen <==> s.page == LoginPage
    ensures v == SignupScreen <==> s.page == SignupPage
  {
    match s.page
    case LoginPage => LoginScreen
    case SignupPage => SignupScreen
    case ConversationsPage => if s.user.Some? then ListScreen else NoScreen
    case ChatPage => if s.user.Some? && s.conversation.Some? then ChatScreen else NoScreen
  }

  /** The navigation bar, with its logout button when a user is set, shows
      on every page but the chat. */
  predicate LogoutVisible(s: AppState) {
    s.page != ChatPage && s.user.Some?
  }

  datatype AppEvent =
    | LoggedIn(u: User)           // onLogin of the login form, onSignup of the signup form
    | LoggedOut
    | ToSignup
    | ToLogin
    | Selected(c: Conversation)   // a card of the list
    | CreateStarted               // the list's "New Chat" button
    | CreateSettled(r: Outcome<Conversation>)   // answer to a create of the list on screen
    | OrphanSettled(r: Outcome<Conversation>)   // answer to a create whose list was left
    | BackPressed

  /** A user event needs the control that raises it on screen. A login or
      signup answer and a create answer are request completions: the
      forms' link stays enabled while a login is under way, so a login
      answer may arrive on any screen, and a create settles whenever one
      is pending, whatever is shown by then. */
  function CanFire(s: AppState, e: AppEvent): (b: bool)
    ensures b && !e.CreateSettled? && !e.OrphanSettled? && !e.LoggedIn? ==> ScreenOf(s) != NoScreen
    ensures b && (e.Selected? || e.CreateStarted?) ==> s.user.Some?
    ensures b && e.LoggedOut? ==> s.user.Some? && s.page != ChatPage
  {
    match e
    case LoggedIn(_) => true
    case LoggedOut => LogoutVisible(s)
    case ToSignup => ScreenOf(s) == LoginScreen
    case ToLogin => ScreenOf(s) == SignupScreen
    case Selected(_) => ScreenOf(s) == ListScreen
    case CreateStarted => ScreenOf(s) == ListScreen
    case CreateSettled(_) => s.createsPending > 0
    case OrphanSettled(_) => s.createsOrphaned > 0
    case BackPressed => ScreenOf(s) == ChatScreen
  }

  /** `handleCreate` up to its request. */
  function StartCreate(s: AppState): (s': AppState)
    ensures s'.createsPending == s.createsPending + 1
    ensures s'.user == s.user && s'.conversation == s.conversation && s'.page == s.page && s'.stored == s.stored
  {
    s.(createsPending := s.createsPending + 1)
  }

  /** A pending create belongs to the list instance that sent it. That
      instance is unmounted as soon as the main area stops showing the
      list, and a list now showing another user's conversations is not the
      one that asked either: its pending creates become orphaned. */
  function Detach(before: AppState, after: AppState): (t: AppState)
    ensures t.user == after.user && t.conversation == after.conversation
    ensures t.page == after.page && t.stored == after.stored
    ensures t.createsPending + t.createsOrphaned == after.createsPending + after.createsOrphaned
    ensures t.createsPending > 0 ==> ScreenOf(t) == ListScreen && t.user == before.user
  {
    if ScreenOf(after) == ListScreen && after.user == before.user then after
    else after.(createsPending := 0, createsOrphaned := after.createsOrphaned + after.createsPending)
  }

  /** Whether a create's answer settles one request of the list on screen
      or an orphaned one, and that that kind is pending. */
  predicate HasPending(s: AppState, orphan: bool) {
    if orphan then s.createsOrphaned > 0 else s.createsPending > 0
  }

  function TakePending(s: AppState, orphan: bool): (s': AppState)
    requires HasPending(s, orphan)
    ensures orphan ==> s'.createsOrphaned == s.createsOrphaned - 1 && s'.createsPending == s.createsPending
    ensures !orphan ==> s'.createsPending == s.createsPending - 1 && s'.createsOrphaned == s.createsOrphaned
    ensures s'.user == s.user && s'.conversation == s.conversation && s'.page == s.page && s'.stored == s.stored
  {
    if orphan then s.(createsOrphaned := s.createsOrphaned - 1)
    else s.(createsPending := s.createsPending - 1)
  }

  /** The create settles, as the source has it: a created conversation is
      passed to `onSelect` unconditionally, even when the list that asked
      for it is no longer mounted. A failure only shows the list's banner. */
  function SettleCreateAsWritten(s: AppState, r: Outcome<Conversation>, orphan: bool): (s': AppState)
    requires HasPending(s, orphan)
    ensures s'.createsPending + s'.createsOrphaned == s.createsPending + s.createsOrphaned - 1
    ensures r.Ok? ==> s'.conversation == Some(r.value) && s'.page == ChatPage
    ensures r.Err? ==> s'.conversation == s.conversation && s'.page == s.page
    ensures s'.user == s.user && s'.stored == s.stored
  {
    var s1 := TakePending(s, orphan);
    if r.Ok? then Select(s1, r.value) else s1
  }

  /** The create settles, opening the created conversation only when the
      list that asked for it is still the one on screen. The answer to an
      orphaned create changes nothing visible. */
  function SettleCreate(s: AppState, r: Outcome<Conversation>, orphan: bool): (s': AppState)
    requires HasPending(s, orphan)
    ensures s'.createsPending + s'.createsOrphaned == s.createsPending + s.createsOrphaned - 1
    ensures r.Ok? && !orphan ==> s'.conversation == Some(r.value) && s'.page == ChatPage
    ensures r.Err? || orphan ==> s'.conversation == s.conversation && s'.page == s.page
    ensures s'.user == s.user && s'.stored == s.stored
  {
    var s1 := TakePending(s, orphan);
    if r.Ok? && !orphan then Select(s1, r.value) else s1
  }

  /** The handler an event runs, before the list's pending creates are
      reassigned. */
  function Handle(s: AppState, e: AppEvent): AppState
    requires CanFire(s, e)
  {
    match e
    case LoggedIn(u) => Login(s, u)
    case LoggedOut => Logout(s)
    case ToSignup => GoTo(s, SignupPage)
    case ToLogin => GoTo(s, LoginPage)
    case Selected(c) => Select(s, c)
    case CreateStarted => StartCreate(s)
    case CreateSettled(r) => SettleCreate(s, r, false)
    case OrphanSettled(r) => SettleCreate(s, r, true)
    case BackPressed => Back(s)
  }

  function Step(s: AppState, e: AppEvent): AppState
    requires CanFire(s, e)
  {
    Detach(s, Handle(s, e))
  }

  predicate Fires(s: AppState, es: seq<AppEvent>)
    decreases |es|
  {
    es == [] || (CanFire(s, es[0]) && Fires(Step(s, es[0]), es[1..]))
  }

  function Run(s: AppState, es: seq<AppEvent>): AppState
    requires Fires(s, es)
    decreases |es|
  {
    if es == [] then s else Run(Step(s, es[0]), es[1..])
  }

  /** The storage slot mirrors the user; the forms show exactly when
      nobody is logged in; the chat page always has a conversation. */
  predicate Inv(s: AppState) {
    && s.stored == s.user
    && (s.user.None? <==> (s.page == LoginPage || s.page == SignupPage))
    && (s.page == ChatPage ==> s.conversation.Some?)
    && (s.createsPending > 0 ==> ScreenOf(s) == ListScreen)
  }

  lemma BootInv(stored: Option<User>)
    ensures Inv(Boot(stored))
  {
  }

  lemma StepInv(s: AppState, e: AppEvent)
    requires Inv(s) && CanFire(s, e)
    ensures Inv(Step(s, e))
  {
  }

  /** Whatever the user does after start-up, storage and memory agree on
      the user, and the main area always renders the screen of its page,
      never nothing. */
  lemma {:induction false} RunInv(s: AppState, es: seq<AppEvent>)
    requires Inv(s) && Fires(s, es)
    ensures Inv(Run(s, es))
    ensures ScreenOf(Run(s, es)) != NoScreen
    decreases |es|
  {
    if es != [] {
      StepInv(s, es[0]);
      RunInv(Step(s, es[0]), es[1..]);
    }
  }

  lemma {:induction false} RunCons(s: AppState, e: AppEvent, es: seq<AppEvent>)
    requires CanFire(s, e) && Fires(Step(s, e), es)
    ensures Fires(s, [e] + es) && Run(s, [e] + es) == Run(Step(s, e), es)
  {
    assert ([e] + es)[1..] == es;
  }

  /** With no create pending, a login answer is exactly `handleLogin`. */
  lemma LoginStep(s: AppState, u: User)
    requires s.createsPending == 0
    ensures Step(s, LoggedIn(u)) == Login(s, u)
  {
  }

  /** Two login answers in a row, the later one winning. */
  lemma LoginsRun(s: AppState, u: User, v: User)
    requires s.createsPending == 0
    ensures Fires(s, [LoggedIn(v)]) && Run(s, [LoggedIn(v)]) == Login(s, v)
    ensures Fires(s, [LoggedIn(v), LoggedIn(u)])
    ensures Run(s, [LoggedIn(v), LoggedIn(u)]) == Login(Login(s, v), u)
  {
    LoginStep(s, v);
    LoginStep(Login(s, v), u);
    RunCons(Login(s, v), LoggedIn(u), []);
    RunCons(s, LoggedIn(v), []);
    RunCons(s, LoggedIn(v), [LoggedIn(u)]);
    assert [LoggedIn(u)] + [] == [LoggedIn(u)];
    assert [LoggedIn(v)] + [] == [LoggedIn(v)];
    assert [LoggedIn(v)] + [LoggedIn(u)] == [LoggedIn(v), LoggedIn(u)];
  }

  /** Every run after start-up, whatever the storage slot held: storage
      and memory agree on the user and the main area is never empty. */
  lemma AnyRunAfterBoot(stored: Option<User>, es: seq<AppEvent>)
    requires Fires(Boot(stored), es)
    ensures Inv(Run(Boot(stored), es)) && ScreenOf(Run(Boot(stored), es)) != NoScreen
  {
    BootInv(stored);
    RunInv(Boot(stored), es);
  }

  /** Selecting, creating, going back and moving between the two forms
      leave the user and the storage slot alone. */
  lemma NavigationKeepsSession(s: AppState, e: AppEvent)
    requires CanFire(s, e) && !e.LoggedIn? && !e.LoggedOut?
    ensures Step(s, e).user == s.user && Step(s, e).stored == s.stored
  {
  }

  /** Logging out and reloading lands on the login page: the next start-up
      finds nothing stored. */
  lemma LogoutThenReload(s: AppState)
    ensures var r := Boot(Logout(s).stored);
      r.page == LoginPage && r.user == None && ScreenOf(r) == LoginScreen
  {
  }

  /** Logging in and reloading restores the same user on the list. */
  lemma LoginThenReload(s: AppState, u: User)
    ensures var r := Boot(Login(s, u).stored);
      r.user == Some(u) && ScreenOf(r) == ListScreen
  {
  }

  /** A login answer that arrives after the user moved on: submit the
      login form, switch to the signup form, sign up as v, and the earlier
      answer for u still logs u in, replacing v's session and its stored
      copy. */
  lemma StaleLoginReplacesSession(s: AppState, u: User, v: User)
    requires ScreenOf(s) == LoginScreen && s.createsPending == 0
    ensures Fires(s, [ToSignup, LoggedIn(v)])
    ensures Fires(s, [ToSignup, LoggedIn(v), LoggedIn(u)])
    ensures var w := Run(s, [ToSignup, LoggedIn(v)]);
      ScreenOf(w) == ListScreen && w.user == Some(v)
    ensures var t := Run(s, [ToSignup, LoggedIn(v), LoggedIn(u)]);
      ScreenOf(t) == ListScreen && t.user == Some(u) && t.stored == Some(u)
  {
    assert [ToSignup] + [LoggedIn(v)] == [ToSignup, LoggedIn(v)];
    assert [ToSignup] + [LoggedIn(v), LoggedIn(u)] == [ToSignup, LoggedIn(v), LoggedIn(u)];
    var s1 := GoTo(s, SignupPage);
    assert Step(s, ToSignup) == s1;
    LoginsRun(s1, u, v);
    RunCons(s, ToSignup, [LoggedIn(v)]);
    RunCons(s, ToSignup, [LoggedIn(v), LoggedIn(u)]);
  }

  /** Creating a conversation from the list: when the backend answers with
      conversation c while the list that asked is still shown, the chat
      for c opens with an empty history, and its history load for c is
      under way when c's id is truthy. The list is unmounted by then, so
      its other pending creates are orphaned. */
  lemma CreateOpensChat(s: AppState, ls: ConversationsList.ListState, c: Conversation)
    requires Inv(s) && ScreenOf(s) == ListScreen
    ensures Fires(s, [CreateStarted, CreateSettled(Ok(c))])
    ensures var s' := Run(s, [CreateStarted, CreateSettled(Ok(c))]);
      && ScreenOf(s') == ChatScreen && s'.conversation == Some(c)
      && s'.createsPending == 0 && s'.createsOrphaned == s.createsOrphaned + s.createsPending
    ensures ConversationsList.CreateDone(ls, Ok(c)).1 == Some(c)
    ensures var chat := Chat.Open(Some(c.id));
      && chat.messages == []
      && (c.id != 0 <==> chat.loadInFlight)
  {
    var s1 := Step(s, CreateStarted);
    var s2 := Step(s1, CreateSettled(Ok(c)));
    assert [CreateStarted, CreateSettled(Ok(c))][1..] == [CreateSettled(Ok(c))];
    assert Fires(s2, []);
    assert Fires(s1, [CreateSettled(Ok(c))]);
    assert Run(s1, [CreateSettled(Ok(c))]) == s2;
  }

  /** The late create, as written: start a create, log out before the
      backend answers, and the answer switches to the chat page with
      nobody logged in. The main area renders nothing, the navigation bar
      is hidden on the chat page, and no control is left to leave it. The
      corrected handler leaves the login form in place. */
  lemma LateCreateEmptiesScreen(s: AppState, c: Conversation)
    requires Inv(s) && ScreenOf(s) == ListScreen
    ensures Fires(s, [CreateStarted, LoggedOut])
    ensures var t := Run(s, [CreateStarted, LoggedOut]);
      && t.createsPending == 0 && t.createsOrphaned > 0
      && var w := SettleCreateAsWritten(t, Ok(c), true);
      && ScreenOf(w) == NoScreen && !Inv(w)
      && (forall e :: CanFire(w, e) ==> e.OrphanSettled? || e.LoggedIn?)
      && ScreenOf(Step(t, OrphanSettled(Ok(c)))) == LoginScreen
  {
    var s1 := Step(s, CreateStarted);
    var t := Step(s1, LoggedOut);
    assert [CreateStarted, LoggedOut][1..] == [LoggedOut];
    assert Fires(t, []);
    assert Fires(s1, [LoggedOut]);
    assert Run(s1, [LoggedOut]) == t;
  }

  /** The corrected handler, in every state: the answer to a create whose
      list was left changes neither the page, the conversation nor the
      session, and one fewer request is outstanding. */
  lemma OrphanAnswerStaysPut(s: AppState, r: Outcome<Conversation>)
    requires CanFire(s, OrphanSettled(r))
    ensures var t := Step(s, OrphanSettled(r));
      && t.page == s.page && t.conversation == s.conversation
      && t.user == s.user && t.stored == s.stored && ScreenOf(t) == ScreenOf(s)
      && t.createsPending + t.createsOrphaned == s.createsPending + s.createsOrphaned - 1
  {
  }

  /** Opening a card and coming back mounts a new list, which did not ask
      for the create still pending. As written, its answer opens the
      created conversation c2; the corrected handler keeps the list, with
      c1 still the selected conversation. */
  lemma ReturnedListIgnoresOldAnswer(s: AppState, c1: Conversation, c2: Conversation)
    requires Inv(s) && ScreenOf(s) == ListScreen
    ensures Fires(s, [CreateStarted, Selected(c1), BackPressed])
    ensures var t := Run(s, [CreateStarted, Selected(c1), BackPressed]);
      && ScreenOf(t) == ListScreen && t.createsPending == 0 && t.createsOrphaned > 0
      && !CanFire(t, CreateSettled(Ok(c2)))
      && var w := SettleCreateAsWritten(t, Ok(c2), true);
      && ScreenOf(w) == ChatScreen && w.conversation == Some(c2)
      && var v := Step(t, OrphanSettled(Ok(c2)));
      && ScreenOf(v) == ListScreen && v.conversation == Some(c1)
  {
    var es := [CreateStarted, Selected(c1), BackPressed];
    var s1 := Step(s, CreateStarted);
    var s2 := Step(s1, Selected(c1));
    var s3 := Step(s2, BackPressed);
    assert es[1..] == [Selected(c1), BackPressed];
    assert es[1..][1..] == [BackPressed];
    assert Fires(s3, []);
    assert Fires(s2, [BackPressed]);
    assert Run(s2, [BackPressed]) == s3;
    assert Fires(s1, es[1..]);
    assert Run(s1, es[1..]) == s3;
  }

  /** Logging out and in again, perhaps as another user v, mounts a new
      list as well. As written, the answer to the create sent before
      opens its conversation c for v; the corrected handler keeps v's
      list. */
  lemma ReloginIgnoresOldAnswer(s: AppState, v: User, c: Conversation)
    requires Inv(s) && ScreenOf(s) == ListScreen
    ensures Fires(s, [CreateStarted, LoggedOut, LoggedIn(v)])
    ensures var t := Run(s, [CreateStarted, LoggedOut, LoggedIn(v)]);
      && ScreenOf(t) == ListScreen && t.user == Some(v)
      && t.createsPending == 0 && t.createsOrphaned > 0
      && !CanFire(t, CreateSettled(Ok(c)))
      && var w := SettleCreateAsWritten(t, Ok(c), true);
      && ScreenOf(w) == ChatScreen && w.user == Some(v) && w.conversation == Some(c)
      && var u := Step(t, OrphanSettled(Ok(c)));
      && ScreenOf(u) == ListScreen && u.user == Some(v) && u.conversation == s.conversation
  {
    var es := [CreateStarted, LoggedOut, LoggedIn(v)];
    var s1 := Step(s, CreateStarted);
    var s2 := Step(s1, LoggedOut);
    var s3 := Step(s2, LoggedIn(v));
    assert es[1..] == [LoggedOut, LoggedIn(v)];
    assert es[1..][1..] == [LoggedIn(v)];
    assert Fires(s3, []);
    assert Fires(s2, [LoggedIn(v)]);
    assert Run(s2, [LoggedIn(v)]) == s3;
    assert Fires(s1, es[1..]);
    assert Run(s1, es[1..]) == s3;
  }
}

=== FILE: chat.dfy ===
/** The chat view's state: the message history, the text input, the shared
    `loading` flag, the error banner, and the voice-recording lifecycle.

    Each asynchronous handler of the component is split into the part that
    runs when it is invoked (up to its `await`) and the part that runs when
    the awaited promise settles; the settled value is a parameter. The
    record also keeps what the component holds outside React state: where
    the microphone pipeline stands (`mic`, kept in refs and closures) and
    how many requests are awaiting an answer. Message timestamps are left
    out. */
module Chat {
  import opened Wrappers
  import opened Js
  import opened Text

  const UserSender: string := "User"
  const AiSender: string := "AI"

  const NoTranscript: string := "[No transcript]"
  const NoAiResponse: string := "[No AI response]"
  const SendFailedDefault: string := "Failed to send message"
  const LoadErrorPrefix: string := "Failed to load messages: "
  const MicErrorPrefix: string := "Microphone access error: "
  const VoiceErrorPrefix: string := "Voice processing failed: "

  /** One bubble of the history. The sender is a string because messages
      loaded from the backend carry whatever sender it stored; the view
      right-aligns exactly those whose sender is "User". */
  datatype Msg = Msg(sender: string, text: string)

  /** The microphone pipeline: no capture; permission prompt pending;
      recorder running; recorder asked to stop, its `onstop` not yet run;
      voice upload pending. */
  datatype Mic = Idle | Requesting | Capturing | Stopping | Uploading

  datatype ChatState = ChatState(
    messages: seq<Msg>,
    input: string,
    loading: bool,
    error: string,
    recording: bool,       // isRecording
    elapsed: nat,          // recordingTime, in seconds
    mic: Mic,
    tracksStopped: bool,   // no microphone stream is held open
    sendsInFlight: nat,    // text sends awaiting the backend
    loadInFlight: bool     // the history load awaits the backend
  )

  /** Reply of the voice endpoint; either text may be missing. */
  datatype VoiceReply = VoiceReply(userMessage: Option<string>, aiMessage: Option<string>)

  /** How the microphone request of `startRecording` ends: capture
      running; `getUserMedia` rejected; or the stream was granted but
      setting up or starting the recorder threw. */
  datatype Capture = Granted | Denied(message: string) | RecorderFailed(message: string)

  /** The voice pipeline and its stream are left as they were. */
  predicate SameVoice(s: ChatState, s': ChatState) {
    && s'.recording == s.recording
    && s'.elapsed == s.elapsed
    && s'.mic == s.mic
    && s'.tracksStopped == s.tracksStopped
  }

  /** `prefix` is an unchanged prefix of `h`. */
  predicate Extends(h: seq<Msg>, prefix: seq<Msg>) {
    |prefix| <= |h| && h[..|prefix|] == prefix
  }

  /** The component's state when it mounts. */
  function Initial(): ChatState {
    ChatState([], "", false, "", false, 0, Idle, true, 0, false)
  }

  /** A conversation id is truthy unless missing or 0. */
  predicate TruthyId(id: Option<int>) {
    id.Some? && id.value != 0
  }

  /** Mounting for a conversation: the history load starts only when the
      conversation id is truthy. */
  function Open(conversationId: Option<int>): (s: ChatState)
    ensures s.messages == [] && s.input == "" && s.error == "" && !s.recording
    ensures s.mic == Idle && s.tracksStopped && s.sendsInFlight == 0
    ensures s.loadInFlight <==> TruthyId(conversationId)
    ensures s.loading <==> TruthyId(conversationId)
  {
    if TruthyId(conversationId) then Initial().(loading := true, error := "", loadInFlight := true)
    else Initial()
  }

  /** The history load settles. On success the history is REPLACED by the
      loaded messages, in the backend's order; on failure it is kept and
      the banner says why. Either way `loading` drops. */
  function LoadDone(s: ChatState, r: Outcome<seq<Msg>>): (s': ChatState)
    requires s.loadInFlight
    ensures !s'.loading && !s'.loadInFlight
    ensures r.Ok? ==> s'.messages == r.value && s'.error == s.error
    ensures r.Err? ==> s'.messages == s.messages && s'.error == LoadErrorPrefix + r.message
    ensures SameVoice(s, s') && s'.input == s.input && s'.sendsInFlight == s.sendsInFlight
  {
    var s1 := s.(loading := false, loadInFlight := false);
    match r
    case Ok(data) => s1.(messages := data)
    case Err(m) => s1.(error := LoadErrorPrefix + m)
  }

  /** The textarea's `onChange`. */
  function Type(s: ChatState, text: string): (s': ChatState)
    ensures s'.input == text && s'.messages == s.messages && s'.loading == s.loading
    ensures SameVoice(s, s')
  {
    s.(input := text)
  }

  /** `handleSend` up to its request: blank input is ignored; otherwise
      the input is cleared, the trimmed text is appended as the user's
      message before any answer, and the request starts. */
  function Send(s: ChatState): (s': ChatState)
    ensures IsBlank(s.input) ==> s' == s
    ensures !IsBlank(s.input) ==>
      && |s'.messages| == |s.messages| + 1
      && Extends(s'.messages, s.messages)
      && s'.messages[|s.messages|] == Msg(UserSender, Trim(s.input))
      && s'.input == "" && s'.loading && s'.error == ""
      && s'.sendsInFlight == s.sendsInFlight + 1
      && s'.loadInFlight == s.loadInFlight
      && SameVoice(s, s')
  {
    if Trim(s.input) == [] then s
    else
      s.(input := "",
         loading := true,
         error := "",
         messages := s.messages + [Msg(UserSender, Trim(s.input))],
         sendsInFlight := s.sendsInFlight + 1)
  }

  /** The text request settles. On success exactly one AI message with the
      reply follows; on failure nothing is removed or added, so the
      optimistic user message stays, and the banner shows the error (or a
      default when it has no text). Either way `loading` drops. */
  function SendDone(s: ChatState, r: Outcome<string>): (s': ChatState)
    requires s.sendsInFlight > 0
    ensures !s'.loading && s'.sendsInFlight == s.sendsInFlight - 1
    ensures Extends(s'.messages, s.messages)
    ensures r.Ok? ==> s'.messages == s.messages + [Msg(AiSender, r.value)] && s'.error == s.error
    ensures r.Err? ==> s'.messages == s.messages
    ensures r.Err? ==> s'.error == (if r.message == "" then SendFailedDefault else r.message)
    ensures SameVoice(s, s') && s'.input == s.input && s'.loadInFlight == s.loadInFlight
  {
    var s1 := s.(loading := false, sendsInFlight := s.sendsInFlight - 1);
    match r
    case Ok(reply) => s1.(messages := s.messages + [Msg(AiSender, reply)])
    case Err(m) => s1.(error := OrElse(Some(m), SendFailedDefault))
  }

  /** `startRecording` up to its `await`: the permission prompt opens. */
  function StartRecording(s: ChatState): (s': ChatState)
    requires s.mic == Idle
    ensures s'.mic == Requesting && s'.recording == s.recording
    ensures s'.messages == s.messages && s'.loading == s.loading && s'.error == s.error
    ensures s'.input == s.input && s'.elapsed == s.elapsed
  {
    s.(mic := Requesting)
  }

  /** The microphone request settles, as the source has it. On success the
      counter restarts at 0 and recording begins. On failure the banner
      shows the error; when the stream had already been granted and the
      recorder failed after it, the counter has already been reset but the
      stream's tracks are not stopped. */
  function CaptureDoneAsWritten(s: ChatState, c: Capture): (s': ChatState)
    requires s.mic == Requesting
    ensures c.Granted? ==> s'.recording && s'.elapsed == 0 && s'.mic == Capturing && !s'.tracksStopped
    ensures c.Denied? ==> s'.mic == Idle && s'.tracksStopped == s.tracksStopped
    ensures c.RecorderFailed? ==> s'.mic == Idle && !s'.tracksStopped && s'.elapsed == 0
    ensures !c.Granted? ==> s'.recording == s.recording && s'.error == MicErrorPrefix + c.message
    ensures s'.messages == s.messages && s'.loading == s.loading
  {
    match c
    case Granted => s.(recording := true, elapsed := 0, mic := Capturing, tracksStopped := false)
    case Denied(m) => s.(mic := Idle, error := MicErrorPrefix + m)
    case RecorderFailed(m) => s.(elapsed := 0, mic := Idle, tracksStopped := false, error := MicErrorPrefix + m)
  }

  /** The microphone request settles, with a granted stream released when
      the recorder cannot be set up, so that no failure leaves the
      microphone open. */
  function CaptureDone(s: ChatState, c: Capture): (s': ChatState)
    requires s.mic == Requesting
    ensures c.Granted? ==> s'.recording && s'.elapsed == 0 && s'.mic == Capturing && !s'.tracksStopped
    ensures c.Denied? ==> s'.mic == Idle && s'.tracksStopped == s.tracksStopped
    ensures c.RecorderFailed? ==> s'.mic == Idle && s'.tracksStopped && s'.elapsed == 0
    ensures !c.Granted? ==> s'.recording == s.recording && s'.error == MicErrorPrefix + c.message
    ensures s'.messages == s.messages && s'.loading == s.loading
  {
    match c
    case Granted => s.(recording := true, elapsed := 0, mic := Capturing, tracksStopped := false)
    case Denied(m) => s.(mic := Idle, error := MicErrorPrefix + m)
    case RecorderFailed(m) => s.(elapsed := 0, mic := Idle, tracksStopped := true, error := MicErrorPrefix + m)
  }

  /** One tick of the one-second interval. */
  function Tick(s: ChatState): (s': ChatState)
    requires s.mic == Capturing
    ensures s'.elapsed == s.elapsed + 1
    ensures s'.messages == s.messages && s'.recording == s.recording && s'.mic == s.mic
    ensures s'.input == s.input && s'.loading == s.loading && s'.error == s.error
    ensures s'.tracksStopped == s.tracksStopped
  {
    s.(elapsed := s.elapsed + 1)
  }

  /** `stopRecording`: acts only while recording; asks the recorder to
      stop (its `onstop` runs later) and leaves recording mode. */
  function StopRecording(s: ChatState): (s': ChatState)
    ensures !s.recording ==> s' == s
    ensures s.recording ==> !s'.recording && s'.mic == Stopping
    ensures s'.messages == s.messages && s'.loading == s.loading && s'.tracksStopped == s.tracksStopped
  {
    if s.recording then s.(recording := false, mic := Stopping) else s
  }

  /** The mic button: stop while recording, start otherwise. */
  function MicClick(s: ChatState): (s': ChatState)
    requires s.recording || s.mic == Idle
    ensures s.recording ==> s' == StopRecording(s)
    ensures !s.recording ==> s'.mic == Requesting
    ensures s'.messages == s.messages && s'.loading == s.loading
  {
    if s.recording then StopRecording(s) else StartRecording(s)
  }

  /** The recorder's `onstop` up to the upload request. */
  function RecorderStopped(s: ChatState): (s': ChatState)
    requires s.mic == Stopping
    ensures s'.mic == Uploading && s'.loading && s'.error == ""
    ensures s'.messages == s.messages && s'.tracksStopped == s.tracksStopped
  {
    s.(loading := true, error := "", mic := Uploading)
  }

  /** The voice upload settles. On success exactly two messages follow, the
      user's transcript then the AI's reply, each replaced by a fixed text
      when missing or empty; on failure none, and the banner says the
      voice processing failed. Either way `loading` drops, the pipeline is
      idle again and the stream's tracks are stopped. */
  function VoiceDone(s: ChatState, r: Outcome<VoiceReply>): (s': ChatState)
    requires s.mic == Uploading
    ensures !s'.loading && s'.mic == Idle && s'.tracksStopped && s'.recording == s.recording
    ensures r.Ok? ==>
      && |s'.messages| == |s.messages| + 2
      && Extends(s'.messages, s.messages)
      && s'.messages[|s.messages|] == Msg(UserSender, OrElse(r.value.userMessage, NoTranscript))
      && s'.messages[|s.messages| + 1] == Msg(AiSender, OrElse(r.value.aiMessage, NoAiResponse))
      && s'.error == s.error
    ensures r.Err? ==> s'.messages == s.messages && s'.error == VoiceErrorPrefix + r.message
    ensures s'.input == s.input && s'.sendsInFlight == s.sendsInFlight && s'.loadInFlight == s.loadInFlight
  {
    var s1 := s.(loading := false, mic := Idle, tracksStopped := true);
    match r
    case Ok(reply) =>
      s1.(messages := s.messages + [Msg(UserSender, OrElse(reply.userMessage, NoTranscript)),
                                    Msg(AiSender, OrElse(reply.aiMessage, NoAiResponse))])
    case Err(m) => s1.(error := VoiceErrorPrefix + m)
  }

  /** `disabled` of the textarea. */
  predicate TextareaDisabled(s: ChatState) {
    s.loading || s.recording
  }

  /** `disabled` of the send button. */
  predicate SendDisabled(s: ChatState) {
    s.loading || Trim(s.input) == [] || s.recording
  }

  /** `disabled` of the mic button. */
  predicate MicDisabled(s: ChatState) {
    s.loading
  }

  /** The control rules: an enabled send button means text entry is open,
      nothing is loading, no recording runs and the input is not blank;
      while recording, text entry is closed and the mic button stays
      usable (to stop) unless something is loading; while loading, all
      three are closed. */
  lemma ControlRules(s: ChatState)
    ensures !SendDisabled(s) <==> !TextareaDisabled(s) && !IsBlank(s.input)
    ensures !SendDisabled(s) ==> !s.loading && !s.recording
    ensures s.recording ==> SendDisabled(s) && TextareaDisabled(s) && (MicDisabled(s) <==> s.loading)
    ensures s.loading ==> SendDisabled(s) && TextareaDisabled(s) && MicDisabled(s)
  {
  }

  /** Sending with the button enabled always appends exactly the trimmed
      input; sending blank input, which the button refuses but the Enter
      key can still submit, changes nothing. */
  lemma SendMatchesButton(s: ChatState)
    ensures !SendDisabled(s) ==> Send(s).messages == s.messages + [Msg(UserSender, Trim(s.input))]
    ensures !TextareaDisabled(s) && SendDisabled(s) ==> Send(s) == s
  {
  }

  const TextareaMaxHeight: int := 120

  /** The textarea's minimum height in pixels: 44 below the 640-pixel
      breakpoint, 52 from it on. */
  function TextareaMinHeight(viewportWidth: int): (h: int)
    ensures 44 <= h <= 52
  {
    if viewportWidth < 640 then 44 else 52
  }

  /** The textarea grows with its content between the minimum height and
      120 pixels, and scrolls beyond that. */
  function TextareaHeight(scrollHeight: int, viewportWidth: int): (h: int)
    ensures TextareaMinHeight(viewportWidth) <= h <= TextareaMaxHeight
    ensures TextareaMinHeight(viewportWidth) <= scrollHeight <= TextareaMaxHeight ==> h == scrollHeight
    ensures scrollHeight < TextareaMinHeight(viewportWidth) ==> h == TextareaMinHeight(viewportWidth)
    ensures scrollHeight > TextareaMaxHeight ==> h == TextareaMaxHeight
  {
    Min(Max(scrollHeight, TextareaMinHeight(viewportWidth)), TextareaMaxHeight)
  }

  /** More content never shrinks the textarea, and a wider screen never
      lowers it. */
  lemma TextareaHeightMonotone(a: int, b: int, w: int, w': int)
    requires a <= b && w <= w'
    ensures TextareaHeight(a, w) <= TextareaHeight(b, w')
  {
  }
}

=== FILE: chat_traces.dfy ===
/** The chat view as a single-threaded event loop: which events can occur
    in a state (user events only on enabled controls, completions only for
    a pending request), what a run of events does, and what holds after
    every run. */
module ChatTraces {
  import opened Wrappers
  import opened Js
  import opened Text
  import opened Chat

  datatype Event =
    | TypeText(text: string)
    | Submit                          // Enter in the textarea, or the send button
    | SendSettled(reply: Outcome<string>)
    | LoadSettled(history: Outcome<seq<Msg>>)
    | MicPressed
    | CaptureSettled(capture: Capture)
    | TimerTick
    | RecorderStopEvent               // the recorder's `onstop`
    | VoiceSettled(voice: Outcome<VoiceReply>)

  /** Whether e can happen in s. Typing and Enter need the textarea
      enabled (the send button's rule is stricter, so a click adds no
      case); the mic button needs to be enabled, and a new capture is only
      started from an idle pipeline; completions need their request
      pending; ticks come only while the interval runs. */
  function CanFire(s: ChatState, e: Event): (b: bool)
    ensures b && (e.TypeText? || e.Submit? || e.MicPressed?) ==> !s.loading
    ensures b && (e.TypeText? || e.Submit?) ==> !s.recording
    ensures b && e.MicPressed? && !s.recording ==> s.mic == Idle
  {
    match e
    case TypeText(_) => !TextareaDisabled(s)
    case Submit => !TextareaDisabled(s)
    case SendSettled(_) => s.sendsInFlight > 0
    case LoadSettled(_) => s.loadInFlight
    case MicPressed => !MicDisabled(s) && (s.recording || s.mic == Idle)
    case CaptureSettled(_) => s.mic == Requesting
    case TimerTick => s.mic == Capturing
    case RecorderStopEvent => s.mic == Stopping
    case VoiceSettled(_) => s.mic == Uploading
  }

  function Step(s: ChatState, e: Event): ChatState
    requires CanFire(s, e)
  {
    match e
    case TypeText(t) => Type(s, t)
    case Submit => Send(s)
    case SendSettled(r) => SendDone(s, r)
    case LoadSettled(r) => LoadDone(s, r)
    case MicPressed => MicClick(s)
    case CaptureSettled(c) => CaptureDone(s, c)
    case TimerTick => Tick(s)
    case RecorderStopEvent => RecorderStopped(s)
    case VoiceSettled(r) => VoiceDone(s, r)
  }

  /** Every event of es can occur when its turn comes. */
  predicate Fires(s: ChatState, es: seq<Event>)
    decreases |es|
  {
    es == [] || (CanFire(s, es[0]) && Fires(Step(s, es[0]), es[1..]))
  }

  function Run(s: ChatState, es: seq<Event>): ChatState
    requires Fires(s, es)
    decreases |es|
  {
    if es == [] then s else Run(Step(s, es[0]), es[1..])
  }

  /** Running one event and then a sequence. */
  lemma RunCons(s: ChatState, e: Event, es: seq<Event>)
    requires CanFire(s, e) && Fires(Step(s, e), es)
    ensures Fires(s, [e] + es)
    ensures Run(s, [e] + es) == Run(Step(s, e), es)
  {
    assert ([e] + es)[1..] == es;
  }

  /** Running a sequence and then another. */
  lemma {:induction false} RunAppend(s: ChatState, a: seq<Event>, b: seq<Event>)
    requires Fires(s, a) && Fires(Run(s, a), b)
    ensures Fires(s, a + b)
    ensures Run(s, a + b) == Run(Run(s, a), b)
    decreases |a|
  {
    if a != [] {
      RunAppend(Step(s, a[0]), a[1..], b);
      assert (a + b)[0] == a[0];
      assert (a + b)[1..] == a[1..] + b;
    } else {
      assert a + b == b;
    }
  }

  /** `isRecording` is set exactly while the recorder runs, and a
      microphone stream is held exactly from the grant until the upload
      settles. */
  predicate Inv(s: ChatState) {
    && (s.recording <==> s.mic == Capturing)
    && (s.tracksStopped <==> (s.mic == Idle || s.mic == Requesting))
  }

  lemma OpenInv(conversationId: Option<int>)
    ensures Inv(Open(conversationId))
  {
  }

  lemma StepInv(s: ChatState, e: Event)
    requires Inv(s) && CanFire(s, e)
    ensures Inv(Step(s, e))
  {
  }

  /** Every run keeps the invariant. */
  lemma {:induction false} RunInv(s: ChatState, es: seq<Event>)
    requires Inv(s) && Fires(s, es)
    ensures Inv(Run(s, es))
    decreases |es|
  {
    if es != [] {
      StepInv(s, es[0]);
      RunInv(Step(s, es[0]), es[1..]);
    }
  }

  /** Whatever happens after the chat view opens, a pipeline back at idle
      holds no microphone stream, and a recording always has one. */
  lemma MicReleasedAfterAnyRun(conversationId: Option<int>, es: seq<Event>)
    requires Fires(Open(conversationId), es)
    ensures var s := Run(Open(conversationId), es);
      && (s.mic == Idle ==> s.tracksStopped)
      && (s.recording ==> !s.tracksStopped)
  {
    OpenInv(conversationId);
    RunInv(Open(conversationId), es);
  }

  /** The source's handler breaks that invariant: a recorder that fails
      after the stream was granted leaves the pipeline idle with the stream
      still open. */
  lemma RecorderFailureLeavesMicOpen(s: ChatState, m: string)
    requires Inv(s) && s.mic == Requesting
    ensures var s' := CaptureDoneAsWritten(s, RecorderFailed(m));
      s'.mic == Idle && !s'.tracksStopped && !Inv(s')
  {
  }

  predicate NoLoad(es: seq<Event>) {
    forall i :: 0 <= i < |es| ==> !es[i].LoadSettled?
  }

  lemma ExtendsTrans(a: seq<Msg>, b: seq<Msg>, c: seq<Msg>)
    requires Extends(b, a) && Extends(c, b)
    ensures Extends(c, a)
  {
    assert c[..|a|] == c[..|b|][..|a|];
  }

  /** Apart from a history load, nothing removes or rewrites a message:
      the history before a run is a prefix of the history after it. */
  lemma {:induction false} HistoryGrowsWithoutLoad(s: ChatState, es: seq<Event>)
    requires Fires(s, es) && NoLoad(es)
    ensures Extends(Run(s, es).messages, s.messages)
    decreases |es|
  {
    if es == [] {
      assert s.messages[..|s.messages|] == s.messages;
    } else {
      var s1 := Step(s, es[0]);
      assert Extends(s1.messages, s.messages) by {
        assert !es[0].LoadSettled?;
        if s1.messages == s.messages {
          assert s.messages[..|s.messages|] == s.messages;
        }
      }
      assert NoLoad(es[1..]) by {
        forall i | 0 <= i < |es[1..]| ensures !es[1..][i].LoadSettled? {
          assert es[1..][i] == es[i + 1];
        }
      }
      HistoryGrowsWithoutLoad(s1, es[1..]);
      ExtendsTrans(s.messages, s1.messages, Run(s1, es[1..]).messages);
    }
  }

  /** A text exchange with the send button enabled: on success the history
      gains exactly the trimmed user message and then the reply; on failure
      only the user message, and the error is shown. */
  lemma TextExchange(s: ChatState, r: Outcome<string>)
    requires !SendDisabled(s)
    ensures Fires(s, [Submit, SendSettled(r)])
    ensures var s' := Run(s, [Submit, SendSettled(r)]);
      && !s'.loading && s'.input == ""
      && (r.Ok? ==> s'.messages == s.messages + [Msg(UserSender, Trim(s.input)), Msg(AiSender, r.value)])
      && (r.Err? ==> s'.messages == s.messages + [Msg(UserSender, Trim(s.input))] && s'.error != "")
  {
    var s1 := Send(s);
    var s2 := SendDone(s1, r);
    RunCons(s1, SendSettled(r), []);
    RunCons(s, Submit, [SendSettled(r)]);
    assert [Submit] + [SendSettled(r)] == [Submit, SendSettled(r)];
  }

  lemma HelloIsTrimmed()
    ensures Trim("Hello") == "Hello"
  {
    assert IsTrimmed("Hello") by {
      assert "Hello"[0] == 'H' && "Hello"[4] == 'o';
    }
    assert "Hello" == [] + "Hello" + [];
    TrimUnique([], "Hello", []);
  }

  /** An exchange in an empty chat with nothing loading: typing a trimmed
      non-empty text and sending it gives the history [User text, AI
      reply]. */
  lemma ExchangeInEmptyChat(text: string, reply: string)
    requires text != [] && IsTrimmed(text)
    ensures var es := [TypeText(text), Submit, SendSettled(Ok(reply))];
      && Fires(Initial(), es)
      && Run(Initial(), es).messages == [Msg(UserSender, text), Msg(AiSender, reply)]
  {
    var s0 := Initial();
    var s1 := Type(s0, text);
    assert text == [] + text + [];
    TrimUnique([], text, []);
    TextExchange(s1, Ok(reply));
    RunCons(s0, TypeText(text), [Submit, SendSettled(Ok(reply))]);
    assert [TypeText(text)] + [Submit, SendSettled(Ok(reply))] == [TypeText(text), Submit, SendSettled(Ok(reply))];
  }

  /** A first exchange in a new conversation: the chat opens for a
      truthy conversation id with text entry disabled, the history load
      answers with no messages, and typing a trimmed non-empty text and
      sending it gives the history [User text, AI reply]. */
  lemma FirstExchange(id: int, text: string, reply: string)
    requires id != 0 && text != [] && IsTrimmed(text)
    ensures !CanFire(Open(Some(id)), TypeText(text))
    ensures var es := [LoadSettled(Ok([])), TypeText(text), Submit, SendSettled(Ok(reply))];
      && Fires(Open(Some(id)), es)
      && Run(Open(Some(id)), es).messages == [Msg(UserSender, text), Msg(AiSender, reply)]
  {
    var s0 := Open(Some(id));
    var rest := [TypeText(text), Submit, SendSettled(Ok(reply))];
    assert LoadDone(s0, Ok([])) == Initial();
    ExchangeInEmptyChat(text, reply);
    RunCons(s0, LoadSettled(Ok([])), rest);
    assert [LoadSettled(Ok([]))] + rest
        == [LoadSettled(Ok([])), TypeText(text), Submit, SendSettled(Ok(reply))];
  }

  /** The example of a first exchange: sending "Hello" in a new
      conversation gives the history [User "Hello", AI reply]. */
  lemma HelloExample(id: int, reply: string)
    requires id != 0
    ensures var es := [LoadSettled(Ok([])), TypeText("Hello"), Submit, SendSettled(Ok(reply))];
      && Fires(Open(Some(id)), es)
      && Run(Open(Some(id)), es).messages == [Msg(UserSender, "Hello"), Msg(AiSender, reply)]
  {
    HelloIsTrimmed();
    FirstExchange(id, "Hello", reply);
  }

  /** A voice message from a running recording: stop, upload, settle. On
      success exactly two messages are appended, transcript then reply; on
      failure none. Either way the pipeline is idle, nothing is loading
      and the stream is released. */
  lemma VoiceExchange(s: ChatState, r: Outcome<VoiceReply>)
    requires Inv(s) && s.recording && !s.loading
    ensures Fires(s, [MicPressed, RecorderStopEvent, VoiceSettled(r)])
    ensures var s' := Run(s, [MicPressed, RecorderStopEvent, VoiceSettled(r)]);
      && s'.mic == Idle && s'.tracksStopped && !s'.loading && !s'.recording
      && (r.Ok? ==> s'.messages == s.messages + [Msg(UserSender, OrElse(r.value.userMessage, NoTranscript)),
                                                 Msg(AiSender, OrElse(r.value.aiMessage, NoAiResponse))])
      && (r.Err? ==> s'.messages == s.messages && s'.error == VoiceErrorPrefix + r.message)
  {
    var s1 := MicClick(s);
    var s2 := RecorderStopped(s1);
    var s3 := VoiceDone(s2, r);
    RunCons(s2, VoiceSettled(r), []);
    RunCons(s1, RecorderStopEvent, [VoiceSettled(r)]);
    assert [RecorderStopEvent] + [VoiceSettled(r)] == [RecorderStopEvent, VoiceSettled(r)];
    RunCons(s, MicPressed, [RecorderStopEvent, VoiceSettled(r)]);
    assert [MicPressed] + [RecorderStopEvent, VoiceSettled(r)] == [MicPressed, RecorderStopEvent, VoiceSettled(r)];
    if r.Ok? {
      var v := r.value;
      assert s3.messages == s.messages + [Msg(UserSender, OrElse(v.userMessage, NoTranscript)),
                                          Msg(AiSender, OrElse(v.aiMessage, NoAiResponse))];
    }
  }

  // The runs below start from Initial(), a fresh view with no conversation
  // selected. Opening a conversation whose history loads empty reaches the
  // same state (FirstExchange asserts LoadDone(Open(Some(id)), Ok([])) ==
  // Initial()), so every run below is also a run of a newly opened chat.

  /** The disabled controls do not keep text sending and recording apart:
      press the mic, send a message while the permission prompt is open,
      then grant. Recording now runs while the text request is pending. */
  lemma RecordingWhileSending(text: string)
    requires !IsBlank(text)
    ensures var es := [MicPressed, TypeText(text), Submit, CaptureSettled(Granted)];
      && Fires(Initial(), es)
      && var s := Run(Initial(), es);
      s.recording && s.loading && s.sendsInFlight == 1
  {
    var s0 := Initial();
    var s1 := MicClick(s0);
    var s2 := Type(s1, text);
    var s3 := Send(s2);
    var s4 := CaptureDone(s3, Granted);
    RunCons(s3, CaptureSettled(Granted), []);
    RunCons(s2, Submit, [CaptureSettled(Granted)]);
    assert [Submit] + [CaptureSettled(Granted)] == [Submit, CaptureSettled(Granted)];
    RunCons(s1, TypeText(text), [Submit, CaptureSettled(Granted)]);
    assert [TypeText(text)] + [Submit, CaptureSettled(Granted)] == [TypeText(text), Submit, CaptureSettled(Granted)];
    RunCons(s0, MicPressed, [TypeText(text), Submit, CaptureSettled(Granted)]);
    assert [MicPressed] + [TypeText(text), Submit, CaptureSettled(Granted)]
        == [MicPressed, TypeText(text), Submit, CaptureSettled(Granted)];
  }

  /** Grant the microphone and press it again: the recorder is asked to
      stop and nothing is loading. */
  lemma StopRequested()
    ensures var es := [MicPressed, CaptureSettled(Granted), MicPressed];
      && Fires(Initial(), es)
      && var s := Run(Initial(), es);
      s.mic == Stopping && !s.recording && !s.loading && s.sendsInFlight == 0
  {
    var s0 := Initial();
    var s1 := MicClick(s0);
    var s2 := CaptureDone(s1, Granted);
    RunCons(s2, MicPressed, []);
    RunCons(s1, CaptureSettled(Granted), [MicPressed]);
    assert [CaptureSettled(Granted)] + [MicPressed] == [CaptureSettled(Granted), MicPressed];
    RunCons(s0, MicPressed, [CaptureSettled(Granted), MicPressed]);
    assert [MicPressed] + [CaptureSettled(Granted), MicPressed] == [MicPressed, CaptureSettled(Granted), MicPressed];
  }

  /** Text sent between the stop and the recorder's `onstop` settles
      during the voice upload and clears `loading`, re-enabling text entry
      and the mic button while the upload is still pending. */
  lemma TextSettlesDuringUpload(s: ChatState, text: string, reply: string)
    requires s.mic == Stopping && !s.recording && !s.loading && !IsBlank(text)
    ensures var es := [TypeText(text), Submit, RecorderStopEvent, SendSettled(Ok(reply))];
      && Fires(s, es)
      && var s' := Run(s, es);
      s'.mic == Uploading && !s'.loading && !TextareaDisabled(s') && !MicDisabled(s')
  {
    var s1 := Type(s, text);
    var s2 := Send(s1);
    var s3 := RecorderStopped(s2);
    RunCons(s3, SendSettled(Ok(reply)), []);
    RunCons(s2, RecorderStopEvent, [SendSettled(Ok(reply))]);
    assert [RecorderStopEvent] + [SendSettled(Ok(reply))] == [RecorderStopEvent, SendSettled(Ok(reply))];
    RunCons(s1, Submit, [RecorderStopEvent, SendSettled(Ok(reply))]);
    assert [Submit] + [RecorderStopEvent, SendSettled(Ok(reply))] == [Submit, RecorderStopEvent, SendSettled(Ok(reply))];
    RunCons(s, TypeText(text), [Submit, RecorderStopEvent, SendSettled(Ok(reply))]);
    assert [TypeText(text)] + [Submit, RecorderStopEvent, SendSettled(Ok(reply))]
        == [TypeText(text), Submit, RecorderStopEvent, SendSettled(Ok(reply))];
  }

  /** One `loading` flag serves three requests: from a fresh chat, the
      whole interleaving ends with the voice upload pending while text
      entry and the mic button are enabled. */
  lemma UploadPendingWithControlsEnabled(text: string, reply: string)
    requires !IsBlank(text)
    ensures var es := [MicPressed, CaptureSettled(Granted), MicPressed, TypeText(text), Submit,
                       RecorderStopEvent, SendSettled(Ok(reply))];
      && Fires(Initial(), es)
      && var s := Run(Initial(), es);
      s.mic == Uploading && !s.loading && !TextareaDisabled(s) && !MicDisabled(s)
  {
    var a := [MicPressed, CaptureSettled(Granted), MicPressed];
    var b := [TypeText(text), Submit, RecorderStopEvent, SendSettled(Ok(reply))];
    StopRequested();
    TextSettlesDuringUpload(Run(Initial(), a), text, reply);
    RunAppend(Initial(), a, b);
    assert a + b == [MicPressed, CaptureSettled(Granted), MicPressed, TypeText(text), Submit,
                     RecorderStopEvent, SendSettled(Ok(reply))];
  }
}

=== FILE: conversations.dfy ===
/** The conversation list: loading the user's conversations, creating a new
    one, and what the list shows. */
module ConversationsList {
  import opened Wrappers
  import opened Entities
  import opened Preview

  datatype ListState = ListState(conversations: seq<Conversation>, loading: bool, error: string)

  /** The state on first render: no conversations, nothing loading. */
  function Initial(): ListState {
    ListState([], false, "")
  }

  /** `loadConversations` and `handleCreate` both begin by raising
      `loading` and clearing the banner; nothing else changes. */
  function RequestStarted(s: ListState): (s': ListState)
    ensures s'.loading && s'.error == "" && s'.conversations == s.conversations
  {
    s.(loading := true, error := "")
  }

  /** `loadConversations` settles: on success the list becomes the
      response, in the backend's order; on failure the list is kept and
      the banner shows the error. Either way `loading` drops. */
  function LoadDone(s: ListState, r: Outcome<seq<Conversation>>): (s': ListState)
    ensures !s'.loading
    ensures r.Ok? ==> s'.conversations == r.value && s'.error == s.error
    ensures r.Err? ==> s'.conversations == s.conversations && s'.error == r.message
  {
    match r
    case Ok(cs) => s.(conversations := cs, loading := false)
    case Err(m) => s.(error := m, loading := false)
  }

  /** `handleCreate` settles: on success exactly the created conversation
      is handed to `onSelect`; on failure nothing is selected and the
      banner shows the error. The list itself is not touched, and
      `loading` drops. */
  function CreateDone(s: ListState, r: Outcome<Conversation>): (res: (ListState, Option<Conversation>))
    ensures !res.0.loading && res.0.conversations == s.conversations
    ensures r.Ok? ==> res.1 == Some(r.value) && res.0.error == s.error
    ensures r.Err? ==> res.1 == None && res.0.error == r.message
  {
    match r
    case Ok(c) => (s.(loading := false), Some(c))
    case Err(m) => (s.(error := m, loading := false), None)
  }

  /** One card of the list: keyed by the conversation id, with its title
      and preview line. */
  datatype Card = Card(key: int, title: string, subtitle: string)

  /** What the body of the list shows: a placeholder while the first load
      runs, an invitation when there is nothing to show, or one card per
      conversation. */
  datatype Body = Skeleton | EmptyState | Cards(cards: seq<Card>)

  function CardOf(c: Conversation): Card {
    Card(c.id, CardTitle(c.latestMessage), CardSubtitle(c.latestMessage))
  }

  function View(s: ListState): (b: Body)
    ensures b.Skeleton? <==> s.loading && s.conversations == []
    ensures b.EmptyState? <==> !s.loading && s.conversations == []
    ensures b.Cards? ==>
      && |b.cards| == |s.conversations|
      && forall i :: 0 <= i < |b.cards| ==> b.cards[i] == CardOf(s.conversations[i])
  {
    if s.loading && s.conversations == [] then Skeleton
    else if s.conversations == [] then EmptyState
    else Cards(seq(|s.conversations|, i requires 0 <= i < |s.conversations| => CardOf(s.conversations[i])))
  }

  /** After a successful load of a non-empty list, the cards show exactly
      the loaded conversations in the backend's order, whatever the list
      held before, and every title fits in 28 characters. */
  lemma LoadedListShown(s: ListState, cs: seq<Conversation>)
    requires cs != []
    ensures var b := View(LoadDone(s, Ok(cs)));
      && b.Cards?
      && |b.cards| == |cs|
      && (forall i :: 0 <= i < |cs| ==> b.cards[i].key == cs[i].id)
      && (forall i :: 0 <= i < |cs| ==> |b.cards[i].title| <= TitleLimit + |Ellipsis|)
  {
    var b := View(LoadDone(s, Ok(cs)));
    forall i | 0 <= i < |cs| ensures |b.cards[i].title| <= TitleLimit + |Ellipsis| {
      assert b.cards[i] == CardOf(cs[i]);
    }
  }

  /** A failed load keeps what was shown: the same cards as before. */
  lemma FailedLoadKeepsCards(s: ListState, m: string)
    requires s.conversations != []
    ensures View(LoadDone(s, Err(m))) == View(s.(loading := false))
    ensures View(LoadDone(s, Err(m))) == View(s)
  {
  }

  /** The first paint, before the mount effect runs, invites the user to
      start a conversation; once the effect has started the load, the
      placeholder replaces it until the list arrives. */
  lemma FirstRender()
    ensures View(Initial()) == EmptyState
    ensures View(RequestStarted(Initial())) == Skeleton
  {
  }
}

=== FILE: entities.dfy ===
/** The records the client receives from the backend and passes between
    its views. */
module Entities {
  import opened Wrappers

  /** The logged-in user, as returned by login or signup. */
  datatype User = User(id: int, email: string)

  /** A conversation of the user; its latest message, when present, feeds
      the preview on the list. The creation date is kept as the backend's
      text. */
  datatype Conversation = Conversation(id: int, userId: int, createdAt: string, latestMessage: Option<string>)
}

=== FILE: js.dfy ===
/** The JavaScript value conventions the components lean on: truthiness
    of a possibly missing string, the `||` fallback, and `Math.min` and
    `Math.max` on integers. */
module Js {
  import opened Wrappers

  /** A JavaScript string is falsy exactly when it is missing or empty;
      `v || d` keeps a truthy v and falls back to d otherwise. */
  predicate Truthy(v: Option<string>) {
    v.Some? && v.value != ""
  }

  function OrElse(v: Option<string>, d: string): (r: string)
    ensures Truthy(v) ==> r == v.value
    ensures !Truthy(v) ==> r == d
  {
    if Truthy(v) then v.value else d
  }

  function Min(a: int, b: int): int { if a <= b then a else b }

  function Max(a: int, b: int): int { if a <= b then b else a }
}

=== FILE: preview.dfy ===
/** `getPreview` of the conversation list and the card title built from it.

    The preview removes markdown markup with four global regular-expression
    replacements, applied in this order (patterns shown without their
    slashes; each carries the `g` flag):

      \*\*(.*?)\*\*        -> '$1'            (bold)
      \*(.*?)\*            -> '$1'            (italic)
      \[(.*?)\]\(.*?\)     -> '$1'            (link)
      ```[\s\S]*?```       -> '[Code Block]'  (fenced code)

    and then keeps the first 60 characters, adding "..." when the ORIGINAL
    message is longer than 60.

    A global replacement scans left to right: at each position it tries to
    match; on a match it emits the replacement and resumes after the match,
    otherwise it emits the character and moves on by one. None of the four
    patterns looks behind, so matching at position i of s is matching at the
    start of s[i..]; the model works on suffixes. `.` matches every
    character except the four ECMAScript line terminators; `[\s\S]` matches
    every character; `*?` is lazy, so the shortest continuation that lets
    the rest of the pattern match is taken. */
module Preview {
  import opened Wrappers
  import opened Js

  predicate IsLineTerminator(c: char) {
    c == '\n' || c == '\r' || c == '\U{2028}' || c == '\U{2029}'
  }

  /** The first n characters of t are all matched by `.`. */
  predicate LineFree(t: string, n: nat)
    requires n <= |t|
  {
    forall k :: 0 <= k < n ==> !IsLineTerminator(t[k])
  }

  /** The literal d occurs in t at position q. */
  predicate OccursAt(t: string, q: nat, d: string)
  {
    q + |d| <= |t| && t[q..q + |d|] == d
  }

  /** `t` does not contain the character c. */
  predicate Lacks(t: string, c: char) {
    forall k :: 0 <= k < |t| ==> t[k] != c
  }

  /** The lazy search of `(.*?)d` (or `[\s\S]*?d` when dotAll) at the start
      of t: the length of the shortest run, every character of which `.`
      accepts, that is followed by d. */
  function FindClose(t: string, d: string, dotAll: bool): (r: Option<nat>)
    requires |d| > 0
    ensures r.Some? ==> r.value + |d| <= |t|
    decreases |t|
  {
    if OccursAt(t, 0, d) then Some(0)
    else if t == [] || (!dotAll && IsLineTerminator(t[0])) then None
    else
      match FindClose(t[1..], d, dotAll)
      case None => None
      case Some(q) => Some(q + 1)
  }

  lemma OccursShift(t: string, q: nat, d: string)
    requires |t| > 0
    ensures OccursAt(t, q + 1, d) <==> OccursAt(t[1..], q, d)
  {
    if q + 1 + |d| <= |t| {
      assert t[q + 1..q + 1 + |d|] == t[1..][q..q + |d|];
    }
  }

  lemma LineFreeShift(t: string, q: nat)
    requires q + 1 <= |t|
    ensures LineFree(t, q + 1) <==> !IsLineTerminator(t[0]) && LineFree(t[1..], q)
  {
    assert forall k :: 0 <= k < q ==> t[1..][k] == t[k + 1];
    if !IsLineTerminator(t[0]) && LineFree(t[1..], q) {
      forall k | 0 <= k < q + 1 ensures !IsLineTerminator(t[k]) {
        if k > 0 { assert t[k] == t[1..][k - 1]; }
      }
    }
  }

  /** q is the first occurrence of d in t, and the characters before it
      are all ones the search may cross. */
  predicate FirstReachable(t: string, d: string, dotAll: bool, q: nat) {
    && OccursAt(t, q, d)
    && (dotAll || LineFree(t, q))
    && forall q' :: 0 <= q' < q ==> !OccursAt(t, q', d)
  }

  /** Every occurrence of d in t lies behind a line terminator the search
      may not cross. */
  predicate Unreachable(t: string, d: string, dotAll: bool) {
    forall q :: 0 <= q <= |t| && OccursAt(t, q, d) ==> !dotAll && !LineFree(t, q)
  }

  /** `FindClose` is the lazy quantifier: it finds the FIRST occurrence of d
      reachable through characters `.` accepts, and fails exactly when no
      occurrence is reachable. */
  lemma {:induction false} FindCloseFirst(t: string, d: string, dotAll: bool)
    requires |d| > 0
    ensures FindClose(t, d, dotAll).Some? ==> FirstReachable(t, d, dotAll, FindClose(t, d, dotAll).value)
    ensures FindClose(t, d, dotAll).None? ==> Unreachable(t, d, dotAll)
    decreases |t|
  {
    if OccursAt(t, 0, d) {
    } else if t == [] {
    } else if !dotAll && IsLineTerminator(t[0]) {
      forall q | 0 <= q <= |t| && OccursAt(t, q, d) ensures !LineFree(t, q) {
        assert q > 0;
      }
    } else {
      FindCloseFirst(t[1..], d, dotAll);
      match FindClose(t[1..], d, dotAll)
      case None => UnreachableStep(t, d, dotAll);
      case Some(q) => FirstReachableStep(t, d, dotAll, q);
    }
  }

  /** The search step when t[1..] holds no reachable occurrence. */
  lemma UnreachableStep(t: string, d: string, dotAll: bool)
    requires |d| > 0 && t != [] && !OccursAt(t, 0, d) && (dotAll || !IsLineTerminator(t[0]))
    requires Unreachable(t[1..], d, dotAll)
    ensures Unreachable(t, d, dotAll)
  {
    forall q | 0 <= q <= |t| && OccursAt(t, q, d) ensures !dotAll && !LineFree(t, q) {
      assert q > 0;
      OccursShift(t, q - 1, d);
      LineFreeShift(t, q - 1);
    }
  }

  /** The search step when t[1..] holds one: the one of t is shifted by
      one. */
  lemma FirstReachableStep(t: string, d: string, dotAll: bool, q: nat)
    requires |d| > 0 && t != [] && !OccursAt(t, 0, d) && (dotAll || !IsLineTerminator(t[0]))
    requires FirstReachable(t[1..], d, dotAll, q)
    ensures FirstReachable(t, d, dotAll, q + 1)
  {
    OccursShift(t, q, d);
    LineFreeShift(t, q);
    forall q' | 0 <= q' < q + 1 ensures !OccursAt(t, q', d) {
      if q' > 0 { OccursShift(t, q' - 1, d); }
    }
  }

  /** The converse: an occurrence reachable through `.` with none before it
      is what `FindClose` returns. */
  lemma FindCloseAt(t: string, d: string, dotAll: bool, q: nat)
    requires |d| > 0
    requires FirstReachable(t, d, dotAll, q)
    ensures FindClose(t, d, dotAll) == Some(q)
  {
    FindCloseFirst(t, d, dotAll);
  }

  datatype Pattern = Bold | Italic | Link | CodeBlock

  /** The character every match of the pattern starts with. */
  function Opener(p: Pattern): char {
    match p
    case Bold => '*'
    case Italic => '*'
    case Link => '['
    case CodeBlock => '`'
  }

  /** Length of the opening delimiter before the kept group. */
  function GroupStart(p: Pattern): nat {
    match p
    case Bold => 2
    case Italic => 1
    case Link => 1
    case CodeBlock => 3
  }

  /** A match at the start of the text: how many characters it spans and
      what replaces them. */
  datatype Hit = Hit(len: nat, replacement: string)

  /** The position of "](" and the length of the rest of a link match, in
      the text that follows its "[". */
  datatype LinkSpan = LinkSpan(textLen: nat, len: nat)

  /** The lazy target `\(.*?\)` after a "](" at position i of t: how
      far after the "](" its ")" lies, if one is reachable. */
  function Target(t: string, i: nat): (r: Option<nat>)
    requires OccursAt(t, i, "](")
    ensures r.Some? ==> i + 3 + r.value <= |t|
  {
    FindClose(t[i + 2..], ")", false)
  }

  /** "](" at position i of t, followed by a target that the lazy
      `.*?\)` closes. */
  predicate LinkAt(t: string, i: nat) {
    OccursAt(t, i, "](") && Target(t, i).Some?
  }

  /** `(.*?)\]\(.*?\)` at the start of t, trying the link text up to
      position i first. The engine lengthens the lazy link text one
      character at a time; at each "](" it tries the lazy target up to the
      first ")", and when that fails it backtracks into a longer link
      text, which cannot cross a line break. */
  function LinkScan(t: string, i: nat): (r: Option<LinkSpan>)
    requires i <= |t|
    ensures r.Some? ==> i <= r.value.textLen && r.value.textLen + 3 <= r.value.len <= |t|
    decreases |t| - i
  {
    if LinkAt(t, i) then Some(LinkSpan(i, i + 3 + Target(t, i).value))
    else if i == |t| || IsLineTerminator(t[i]) then None
    else LinkScan(t, i + 1)
  }

  function LinkTail(t: string): (r: Option<LinkSpan>)
    ensures r.Some? ==> r.value.textLen + 3 <= r.value.len <= |t|
  {
    LinkScan(t, 0)
  }

  /** One attempt of pattern p at the start of s. */
  function MatchAt(p: Pattern, s: string): (r: Option<Hit>)
    ensures r.Some? ==> 0 < r.value.len <= |s| && s[0] == Opener(p)
    ensures r.Some? && p != CodeBlock ==>
      && GroupStart(p) + |r.value.replacement| < r.value.len
      && r.value.replacement == s[GroupStart(p)..GroupStart(p) + |r.value.replacement|]
    ensures r.Some? && p == CodeBlock ==> r.value.len >= 6 && r.value.replacement == "[Code Block]"
  {
    match p
    case Bold =>
      if OccursAt(s, 0, "**") then
        match FindClose(s[2..], "**", false)
        case Some(k) => Some(Hit(k + 4, s[2..2 + k]))
        case None => None
      else None
    case Italic =>
      if OccursAt(s, 0, "*") then
        match FindClose(s[1..], "*", false)
        case Some(k) => Some(Hit(k + 2, s[1..1 + k]))
        case None => None
      else None
    case Link =>
      if OccursAt(s, 0, "[") then
        match LinkTail(s[1..])
        case Some(sp) => Some(Hit(sp.len + 1, s[1..1 + sp.textLen]))
        case None => None
      else None
    case CodeBlock =>
      if OccursAt(s, 0, "```") then
        match FindClose(s[3..], "```", true)
        case Some(k) => Some(Hit(k + 6, "[Code Block]"))
        case None => None
      else None
  }

  /** The delimiter that opens and closes bold, italic and fenced code. */
  function Delim(p: Pattern): string
    requires p != Link
  {
    if p == Bold then "**" else if p == Italic then "*" else "```"
  }

  /** Bold, italic and fenced code match exactly when the text starts with
      the delimiter and a closing delimiter is reachable after it; the
      match then ends with the FIRST reachable closing delimiter, and the
      group is everything between the two. */
  lemma MatchAtDelimited(p: Pattern, s: string)
    requires p != Link
    ensures MatchAt(p, s).Some? ==>
      && OccursAt(s, 0, Delim(p))
      && var h := MatchAt(p, s).value;
      && var q := h.len - 2 * |Delim(p)|;
      && q >= 0
      && FirstReachable(s[|Delim(p)|..], Delim(p), p == CodeBlock, q)
      && (p != CodeBlock ==> h.replacement == s[|Delim(p)|..|Delim(p)| + q])
      && (p == CodeBlock ==> h.replacement == "[Code Block]")
    ensures MatchAt(p, s).None? && OccursAt(s, 0, Delim(p)) ==>
      Unreachable(s[|Delim(p)|..], Delim(p), p == CodeBlock)
  {
    var d := Delim(p);
    if OccursAt(s, 0, d) {
      FindCloseFirst(s[|d|..], d, p == CodeBlock);
    }
  }

  /** sp is the link tail of t that backtracking finds: its link text
      ends at the first "](" reachable without a line break whose target
      is closed, and the match ends at that target's ")". */
  predicate LinkFound(t: string, sp: LinkSpan) {
    && sp.textLen <= |t|
    && LinkAt(t, sp.textLen) && LineFree(t, sp.textLen)
    && sp.len == sp.textLen + 3 + Target(t, sp.textLen).value
    && forall i :: 0 <= i < sp.textLen ==> !LinkAt(t, i)
  }

  /** No "](" with a closed target is reachable without a line break. */
  predicate NoLink(t: string) {
    forall i :: 0 <= i <= |t| && LineFree(t, i) ==> !LinkAt(t, i)
  }

  /** No link starts before i, and the link text may reach i. */
  predicate Scanned(t: string, i: nat)
    requires i <= |t|
  {
    LineFree(t, i) && forall j :: 0 <= j < i ==> !LinkAt(t, j)
  }

  /** The backtracking of the link pattern: the link text ends at the
      FIRST "](" reachable through characters `.` accepts whose target is
      closed by a reachable ")", and the match ends at that ")"; when no
      such "](" is reachable there is no match. */
  lemma LinkTailFirst(t: string)
    ensures LinkTail(t).Some? ==> LinkFound(t, LinkTail(t).value)
    ensures LinkTail(t).None? ==> NoLink(t)
  {
    LinkScanFirst(t, 0);
  }

  lemma {:induction false} LinkScanFirst(t: string, i: nat)
    requires i <= |t| && Scanned(t, i)
    ensures LinkScan(t, i).Some? ==> LinkFound(t, LinkScan(t, i).value)
    ensures LinkScan(t, i).None? ==> NoLink(t)
    decreases |t| - i
  {
    if LinkAt(t, i) {
    } else if i == |t| {
    } else if IsLineTerminator(t[i]) {
      forall j | 0 <= j <= |t| && LineFree(t, j) ensures !LinkAt(t, j) {
        assert j <= i;
      }
    } else {
      assert Scanned(t, i + 1);
      LinkScanFirst(t, i + 1);
    }
  }

  /** The converse: the first reachable "](" with a closed target is where
      the link tail puts the end of the link text. */
  lemma LinkTailAt(t: string, k: nat)
    requires k <= |t| && LinkAt(t, k) && Scanned(t, k)
    ensures LinkTail(t) == Some(LinkSpan(k, k + 3 + Target(t, k).value))
  {
    LinkTailFirst(t);
  }

  /** `s.replace(/pattern/g, replacement)`. Text without the pattern's
      opening character is left as it is. The three passes that keep a
      group never lengthen the text; the code pass at most doubles it,
      since its shortest match, six backticks, becomes the twelve
      characters of "[Code Block]". */
  function Rewrite(p: Pattern, s: string): (r: string)
    ensures Lacks(s, Opener(p)) ==> r == s
    ensures p != CodeBlock ==> |r| <= |s|
    ensures |r| <= 2 * |s|
    decreases |s|
  {
    if s == [] then []
    else
      match MatchAt(p, s)
      case Some(h) => h.replacement + Rewrite(p, s[h.len..])
      case None => [s[0]] + Rewrite(p, s[1..])
  }

  /** The four passes in the order the source chains them. */
  function Strip(m: string): (r: string)
    ensures Lacks(m, '*') && Lacks(m, '[') && Lacks(m, '`') ==> r == m
    ensures |r| <= 2 * |m|
  {
    Rewrite(CodeBlock, Rewrite(Link, Rewrite(Italic, Rewrite(Bold, m))))
  }

  const PreviewLimit: nat := 60
  const TitleLimit: nat := 25
  const Ellipsis: string := "..."

  /** `s.substring(0, n)` for n >= 0. */
  function Take(s: string, n: nat): (r: string)
    ensures |r| == Min(n, |s|) && r == s[..|r|]
  {
    if |s| <= n then s else s[..n]
  }

  /** `getPreview(message)`: the stripped text cut to 60 characters, with
      "..." when the original message is longer than 60; "New conversation"
      for a missing or empty message. */
  function GetPreview(message: Option<string>): (r: string)
    ensures !Truthy(message) ==> r == "New conversation"
    ensures |r| <= PreviewLimit + |Ellipsis|
    ensures Truthy(message) ==>
      var body := Strip(message.value);
      var cut := Min(PreviewLimit, |body|);
      && |r| == cut + (if |message.value| > PreviewLimit then |Ellipsis| else 0)
      && r[..cut] == body[..cut]
      && (|message.value| > PreviewLimit ==> r[cut..] == Ellipsis)
  {
    if !Truthy(message) then "New conversation"
    else
      var m := message.value;
      Take(Strip(m), PreviewLimit) + (if |m| > PreviewLimit then Ellipsis else "")
  }

  /** The card title: the first 25 characters of the preview, with "..."
      when the latest message is longer than 25; "New Conversation" (with
      a capital C, unlike the preview's fallback) without a message. */
  function CardTitle(latest: Option<string>): (r: string)
    ensures !Truthy(latest) ==> r == "New Conversation"
    ensures |r| <= TitleLimit + |Ellipsis|
    ensures Truthy(latest) ==>
      var cut := Min(TitleLimit, |GetPreview(latest)|);
      && |r| == cut + (if |latest.value| > TitleLimit then |Ellipsis| else 0)
      && r[..cut] == GetPreview(latest)[..cut]
      && (|latest.value| > TitleLimit ==> r[cut..] == Ellipsis)
  {
    if !Truthy(latest) then "New Conversation"
    else Take(GetPreview(latest), TitleLimit) + (if |latest.value| > TitleLimit then Ellipsis else "")
  }

  /** The card's second line: the preview, or an invitation without a
      message. */
  function CardSubtitle(latest: Option<string>): (r: string)
    ensures !Truthy(latest) ==> r == "Start a new conversation"
    ensures Truthy(latest) ==> r == GetPreview(latest)
  {
    if Truthy(latest) then GetPreview(latest) else "Start a new conversation"
  }
}

=== FILE: preview_props.dfy ===
/** What the preview passes do to well-formed markup, and what the
    preview of plain text is. */
module PreviewProperties {
  import opened Wrappers
  import opened Preview

  /** Slicing a text assembled from an opener, a body, a closer and a
      rest. */
  lemma Pieces(open: string, body: string, close: string, rest: string)
    ensures var s := open + body + close + rest;
      && s[..|open|] == open
      && s[|open|..] == body + close + rest
      && s[|open|..|open| + |body|] == body
      && s[|open| + |body| + |close|..] == rest
  {
  }

  /** A closing delimiter that follows a body free of its first character
      (and, for `.`, of line terminators) is found right after the body. */
  lemma DelimitedFind(body: string, close: string, rest: string, dotAll: bool)
    requires |close| > 0 && Lacks(body, close[0])
    requires dotAll || LineFree(body, |body|)
    ensures FindClose(body + close + rest, close, dotAll) == Some(|body|)
  {
    var t := body + close + rest;
    assert t[|body|..|body| + |close|] == close;
    assert forall k :: 0 <= k < |body| ==> t[k] == body[k];
    forall q' | 0 <= q' < |body| ensures !OccursAt(t, q', close) {
      assert t[q'] == body[q'] != close[0];
    }
    FindCloseAt(t, close, dotAll, |body|);
  }

  /** `**x**` becomes x when x holds no `*` and no line break. */
  lemma BoldUnwrap(x: string, rest: string)
    requires Lacks(x, '*') && LineFree(x, |x|)
    ensures Rewrite(Bold, "**" + x + "**" + rest) == x + Rewrite(Bold, rest)
  {
    var s := "**" + x + "**" + rest;
    Pieces("**", x, "**", rest);
    DelimitedFind(x, "**", rest, false);
    assert MatchAt(Bold, s) == Some(Hit(|x| + 4, x));
  }

  /** `*x*` becomes x when x holds no `*` and no line break. */
  lemma ItalicUnwrap(x: string, rest: string)
    requires Lacks(x, '*') && LineFree(x, |x|)
    ensures Rewrite(Italic, "*" + x + "*" + rest) == x + Rewrite(Italic, rest)
  {
    var s := "*" + x + "*" + rest;
    Pieces("*", x, "*", rest);
    DelimitedFind(x, "*", rest, false);
    assert MatchAt(Italic, s) == Some(Hit(|x| + 2, x));
  }

  /** A fenced block, whatever it holds apart from backticks and across
      line breaks, becomes "[Code Block]". */
  lemma CodeUnwrap(c: string, rest: string)
    requires Lacks(c, '`')
    ensures Rewrite(CodeBlock, "```" + c + "```" + rest) == "[Code Block]" + Rewrite(CodeBlock, rest)
  {
    var s := "```" + c + "```" + rest;
    Pieces("```", c, "```", rest);
    DelimitedFind(c, "```", rest, true);
    assert MatchAt(CodeBlock, s) == Some(Hit(|c| + 6, "[Code Block]"));
  }

  /** The link tail of `text](url)rest` spans text and target exactly. */
  lemma LinkTailSpan(text: string, url: string, rest: string)
    requires Lacks(text, ']') && LineFree(text, |text|)
    requires Lacks(url, ')') && LineFree(url, |url|)
    ensures LinkTail(text + "](" + url + ")" + rest) == Some(LinkSpan(|text|, |text| + 3 + |url|))
  {
    var t := text + "](" + url + ")" + rest;
    var k := |text|;
    assert t[k..k + 2] == "](";
    assert t[k + 2..] == url + ")" + rest;
    DelimitedFind(url, ")", rest, false);
    assert forall j :: 0 <= j < k ==> t[j] == text[j];
    forall j | 0 <= j < k ensures !LinkAt(t, j) {
      assert t[j] != ']';
    }
    LinkTailAt(t, k);
  }

  /** `[text](url)` becomes text when text holds no `]`, url no `)`, and
      neither a line break. */
  lemma LinkUnwrap(text: string, url: string, rest: string)
    requires Lacks(text, ']') && LineFree(text, |text|)
    requires Lacks(url, ')') && LineFree(url, |url|)
    ensures Rewrite(Link, "[" + text + "](" + url + ")" + rest) == text + Rewrite(Link, rest)
  {
    var tail := "](" + url + ")";
    var s := "[" + text + tail + rest;
    assert s == "[" + text + "](" + url + ")" + rest;
    Pieces("[", text, tail, rest);
    assert s[1..] == text + "](" + url + ")" + rest;
    LinkTailSpan(text, url, rest);
    assert MatchAt(Link, s) == Some(Hit(|text| + 4 + |url|, text));
  }

  /** The passes run bold first, then link: a bold link keeps only its
      text. */
  lemma BoldLinkStrip(x: string, u: string)
    requires Lacks(x, '*') && Lacks(x, '[') && Lacks(x, ']') && Lacks(x, '`') && LineFree(x, |x|)
    requires Lacks(u, '*') && Lacks(u, '[') && Lacks(u, ')') && Lacks(u, '`') && LineFree(u, |u|)
    ensures Strip("**[" + x + "](" + u + ")**") == x
  {
    var link := "[" + x + "](" + u + ")";
    assert "**[" + x + "](" + u + ")**" == "**" + link + "**" + [];
    assert Lacks(link, '*') && LineFree(link, |link|) by {
      assert forall k :: 1 <= k < 1 + |x| ==> link[k] == x[k - 1];
      assert forall k :: 3 + |x| <= k < 3 + |x| + |u| ==> link[k] == u[k - 3 - |x|];
    }
    BoldUnwrap(link, []);
    assert link == "[" + x + "](" + u + ")" + [];
    LinkUnwrap(x, u, []);
    assert x + [] == x;
  }

  /** Markup-free text is not changed by the four passes. */
  predicate Plain(m: string) {
    Lacks(m, '*') && Lacks(m, '[') && Lacks(m, '`')
  }

  /** The preview of markup-free text is the text cut to 60 characters,
      with "..." exactly when something was cut. */
  lemma PlainPreview(m: string)
    requires m != [] && Plain(m)
    ensures GetPreview(Some(m)) == Take(m, PreviewLimit) + (if |m| > PreviewLimit then Ellipsis else "")
  {
  }

  /** The title of a markup-free message is its first 25 characters, with
      "..." exactly when it is longer. */
  lemma PlainTitle(m: string)
    requires m != [] && Plain(m)
    ensures CardTitle(Some(m)) == Take(m, TitleLimit) + (if |m| > TitleLimit then Ellipsis else "")
  {
    PlainPreview(m);
    var p := GetPreview(Some(m));
    assert Take(p, TitleLimit) == Take(m, TitleLimit);
  }

  /** A pass that keeps groups never introduces a character the text did
      not have. */
  lemma {:induction false} RewriteKeepsLack(p: Pattern, s: string, c: char)
    requires p != CodeBlock && Lacks(s, c)
    ensures Lacks(Rewrite(p, s), c)
    decreases |s|
  {
    if s != [] {
      match MatchAt(p, s)
      case Some(h) =>
        LacksSlice(s, GroupStart(p), GroupStart(p) + |h.replacement|, c);
        LacksSlice(s, h.len, |s|, c);
        RewriteKeepsLack(p, s[h.len..], c);
        LacksConcat(h.replacement, Rewrite(p, s[h.len..]), c);
      case None =>
        LacksSlice(s, 0, 1, c);
        LacksSlice(s, 1, |s|, c);
        RewriteKeepsLack(p, s[1..], c);
        LacksConcat([s[0]], Rewrite(p, s[1..]), c);
    }
  }

  lemma LacksSlice(s: string, i: nat, j: nat, c: char)
    requires i <= j <= |s| && Lacks(s, c)
    ensures Lacks(s[i..j], c)
  {
    assert forall k :: 0 <= k < j - i ==> s[i..j][k] == s[i + k];
  }

  lemma LacksConcat(a: string, b: string, c: char)
    requires Lacks(a, c) && Lacks(b, c)
    ensures Lacks(a + b, c)
  {
    assert forall k :: |a| <= k < |a + b| ==> (a + b)[k] == b[k - |a|];
  }

  /** Without code fences the stripped text is never longer than the
      message, so a message of at most 60 characters is shown whole. */
  lemma ShortMessageShownWhole(m: string)
    requires m != [] && Lacks(m, '`') && |m| <= PreviewLimit
    ensures GetPreview(Some(m)) == Strip(m)
  {
    var a := Rewrite(Bold, m);
    var b := Rewrite(Italic, a);
    var c := Rewrite(Link, b);
    RewriteKeepsLack(Bold, m, '`');
    RewriteKeepsLack(Italic, a, '`');
    RewriteKeepsLack(Link, b, '`');
  }

  /** n empty fenced blocks in a row. */
  function Fences(n: nat): (r: string)
    ensures |r| == 6 * n
  {
    if n == 0 then [] else "```" + "```" + Fences(n - 1)
  }

  /** Fences hold no bold, italic or link opener. */
  lemma {:induction false} FencesLackOpeners(n: nat)
    ensures Lacks(Fences(n), '*') && Lacks(Fences(n), '[')
  {
    if n > 0 {
      FencesLackOpeners(n - 1);
      var f := Fences(n);
      assert forall k :: 6 <= k < |f| ==> f[k] == Fences(n - 1)[k - 6];
      assert forall k :: 0 <= k < 6 ==> f[k] == '`';
    }
  }

  function Blocks(n: nat): (r: string)
    ensures |r| == 12 * n
  {
    if n == 0 then [] else "[Code Block]" + Blocks(n - 1)
  }

  /** An empty fenced block in front of any text becomes "[Code Block]". */
  lemma EmptyFence(f: string)
    ensures Rewrite(CodeBlock, "```" + "```" + f) == "[Code Block]" + Rewrite(CodeBlock, f)
  {
    assert "```" + [] + "```" + f == "```" + "```" + f;
    CodeUnwrap([], f);
  }

  /** n empty fenced blocks strip to n "[Code Block]"s. */
  predicate FencesStrip(n: nat) {
    Rewrite(CodeBlock, Fences(n)) == Blocks(n)
  }

  lemma {:induction false} FencesBecomeBlocks(n: nat)
    ensures FencesStrip(n)
  {
    if n == 0 {
      assert Fences(0) == [] && Blocks(0) == [];
    } else {
      var m := n - 1;
      FencesBecomeBlocks(m);
      OneMoreFence(m);
      assert n == m + 1;
    }
  }

  lemma OneMoreFence(m: nat)
    requires FencesStrip(m)
    ensures FencesStrip(m + 1)
  {
    FenceGlue(Fences(m), Fences(m + 1), Blocks(m), Blocks(m + 1));
  }

  lemma FenceGlue(f: string, g: string, b: string, c: string)
    requires g == "```" + "```" + f && c == "[Code Block]" + b
    requires Rewrite(CodeBlock, f) == b
    ensures Rewrite(CodeBlock, g) == c
  {
    EmptyFence(f);
  }

  /** The "..." test reads the length of the ORIGINAL message while the cut
      applies to the stripped text, and "[Code Block]" can be longer than
      the block it replaces: six empty fenced blocks (36 characters) strip
      to 72 characters, and the preview shows the first 60 of them with no
      "..." to say that text was cut. */
  lemma FencedMessageCutSilently()
    ensures var m := Fences(6);
      && |m| <= PreviewLimit
      && |Strip(m)| > PreviewLimit
      && GetPreview(Some(m)) == Strip(m)[..PreviewLimit]
  {
    var m := Fences(6);
    FencesLackOpeners(6);
    FencesBecomeBlocks(6);
    assert Rewrite(CodeBlock, m) == Blocks(6);
  }
}

=== FILE: text.dfy ===
/** String helpers with JavaScript semantics: `String.prototype.trim`,
    `Number.prototype.toString()` on non-negative integers, and
    `String.prototype.padStart` with a one-character filler. */
module Text {

  /** The code points `trim` removes: ECMAScript WhiteSpace (tab, vertical
      tab, form feed, space, no-break space, the byte order mark and the
      Unicode space separators) and LineTerminator (LF, CR, LS, PS). */
  predicate IsSpace(c: char) {
    || c == '\t' || c == '\n' || c == '\U{000B}' || c == '\U{000C}' || c == '\r'
    || c == ' ' || c == '\U{00A0}' || c == '\U{1680}'
    || ('\U{2000}' <= c <= '\U{200A}')
    || c == '\U{2028}' || c == '\U{2029}' || c == '\U{202F}' || c == '\U{205F}'
    || c == '\U{3000}' || c == '\U{FEFF}'
  }

  /** `!s.trim()` holds exactly for these strings. */
  predicate IsBlank(s: string) {
    forall k :: 0 <= k < |s| ==> IsSpace(s[k])
  }

  /** Neither end of `s` is a trimmable character. */
  predicate IsTrimmed(s: string) {
    s == [] || (!IsSpace(s[0]) && !IsSpace(s[|s| - 1]))
  }

  /** `s` starts with exactly i trimmable characters. */
  predicate LeadRun(s: string, i: nat) {
    && i <= |s|
    && (forall k :: 0 <= k < i ==> IsSpace(s[k]))
    && (i < |s| ==> !IsSpace(s[i]))
  }

  /** `s` ends with exactly n trimmable characters. */
  predicate TrailRun(s: string, n: nat) {
    && n <= |s|
    && (forall k :: |s| - n <= k < |s| ==> IsSpace(s[k]))
    && (n < |s| ==> !IsSpace(s[|s| - n - 1]))
  }

  /** Number of trimmable characters at the start of `s`. */
  function LeadingSpace(s: string): (n: nat)
    ensures n <= |s|
  {
    if |s| > 0 && IsSpace(s[0]) then 1 + LeadingSpace(s[1..]) else 0
  }

  /** Number of trimmable characters at the end of `s`. */
  function TrailingSpace(s: string): (n: nat)
    ensures n <= |s|
  {
    if |s| > 0 && IsSpace(s[|s| - 1]) then 1 + TrailingSpace(s[..|s| - 1]) else 0
  }

  /** The leading run is the longest prefix of trimmable characters. */
  lemma {:induction false} LeadingSpaceRun(s: string)
    ensures LeadRun(s, LeadingSpace(s))
    decreases |s|
  {
    if |s| > 0 && IsSpace(s[0]) {
      LeadingSpaceRun(s[1..]);
      forall k | 0 < k < LeadingSpace(s) ensures IsSpace(s[k]) {
        assert s[k] == s[1..][k - 1];
      }
      if LeadingSpace(s) < |s| {
        assert s[LeadingSpace(s)] == s[1..][LeadingSpace(s[1..])];
      }
    }
  }

  /** The trailing run is the longest suffix of trimmable characters. */
  lemma {:induction false} TrailingSpaceRun(s: string)
    ensures TrailRun(s, TrailingSpace(s))
    decreases |s|
  {
    if |s| > 0 && IsSpace(s[|s| - 1]) {
      var s' := s[..|s| - 1];
      TrailingSpaceRun(s');
      forall k | |s| - TrailingSpace(s) <= k < |s| - 1 ensures IsSpace(s[k]) {
        assert s[k] == s'[k];
      }
      if TrailingSpace(s) < |s| {
        assert s[|s| - TrailingSpace(s) - 1] == s'[|s'| - TrailingSpace(s') - 1];
      }
    }
  }

  /** `s.trim()`: `s` without its leading and trailing trimmable
      characters. */
  function Trim(s: string): (r: string)
    ensures IsTrimmed(r)
    ensures r == [] <==> IsBlank(s)
    ensures exists i, j :: 0 <= i <= j <= |s| && r == s[i..j] && IsBlank(s[..i]) && IsBlank(s[j..])
  {
    var i := LeadingSpace(s);
    var j := if i == |s| then |s| else |s| - TrailingSpace(s);
    TrimSpan(s, i, j);
    s[i..j]
  }

  /** The span `Trim` keeps: blank on both sides, trimmed itself, and
      empty exactly for blank text. */
  lemma TrimSpan(s: string, i: nat, j: int)
    requires i == LeadingSpace(s)
    requires j == if i == |s| then |s| else |s| - TrailingSpace(s)
    ensures i <= j <= |s|
    ensures IsBlank(s[..i]) && IsBlank(s[j..]) && IsTrimmed(s[i..j])
    ensures s[i..j] == [] <==> IsBlank(s)
  {
    LeadingSpaceRun(s);
    TrailingSpaceRun(s);
    SpanFacts(s, i, TrailingSpace(s), j);
  }

  /** Between a leading run of i and a trailing run of n trimmable
      characters lies a span that is trimmed, and empty exactly when the
      whole text is blank. */
  lemma SpanFacts(s: string, i: nat, n: nat, j: int)
    requires LeadRun(s, i) && TrailRun(s, n)
    requires j == if i == |s| then |s| else |s| - n
    ensures i <= j <= |s|
    ensures IsBlank(s[..i]) && IsBlank(s[j..]) && IsTrimmed(s[i..j])
    ensures s[i..j] == [] <==> IsBlank(s)
  {
    if i < |s| {
      assert i < |s| - n;
    } else {
      assert forall k :: 0 <= k < |s| ==> IsSpace(s[k]);
    }
    assert forall k :: 0 <= k < |s[j..]| ==> s[j..][k] == s[j + k];
  }

  /** Conversely, a leading run of exactly n trimmable characters is the
      one `LeadingSpace` counts. */
  lemma {:induction false} LeadingSpaceAt(s: string, n: nat)
    requires LeadRun(s, n)
    ensures LeadingSpace(s) == n
    decreases n
  {
    if n > 0 {
      assert IsSpace(s[0]);
      assert forall k :: 0 <= k < n - 1 ==> s[1..][k] == s[k + 1];
      if n < |s| {
        assert s[1..][n - 1] == s[n];
      }
      LeadingSpaceAt(s[1..], n - 1);
    }
  }

  /** A trailing run of exactly n trimmable characters is the one
      `TrailingSpace` counts. */
  lemma {:induction false} TrailingSpaceAt(s: string, n: nat)
    requires TrailRun(s, n)
    ensures TrailingSpace(s) == n
    decreases n
  {
    if n > 0 {
      var s' := s[..|s| - 1];
      assert IsSpace(s[|s| - 1]);
      assert forall k :: |s'| - (n - 1) <= k < |s'| ==> s'[k] == s[k];
      if n < |s| {
        assert s'[|s'| - (n - 1) - 1] == s[|s| - n - 1];
      }
      TrailingSpaceAt(s', n - 1);
    }
  }

  /** Where the characters of `a + r + b` come from. */
  lemma ConcatParts(a: string, r: string, b: string)
    ensures var s := a + r + b;
      && (forall k :: 0 <= k < |a| ==> s[k] == a[k])
      && (forall k :: |a| <= k < |a| + |r| ==> s[k] == r[k - |a|])
      && (forall k :: |a| + |r| <= k < |s| ==> s[k] == b[k - |a| - |r|])
      && s[|a|..|a| + |r|] == r
  {
  }

  /** `Trim` is the only way to split `s` into blank, trimmed, blank:
      an independent characterisation of `trim`. */
  lemma TrimUnique(a: string, r: string, b: string)
    requires IsBlank(a) && IsBlank(b) && IsTrimmed(r)
    ensures Trim(a + r + b) == r
  {
    var s := a + r + b;
    ConcatParts(a, r, b);
    if r == [] {
      assert IsBlank(s);
      LeadingSpaceAt(s, |s|);
    } else {
      LeadingSpaceAt(s, |a|);
      TrailingSpaceAt(s, |b|);
    }
  }

  predicate IsDigit(c: char) { '0' <= c <= '9' }

  predicate AllDigits(s: string) {
    forall k :: 0 <= k < |s| ==> IsDigit(s[k])
  }

  function DigitChar(d: nat): (c: char)
    requires d < 10
    ensures IsDigit(c)
  {
    (48 + d) as char
  }

  function DigitValue(c: char): (d: nat)
    requires IsDigit(c)
    ensures d < 10 && DigitChar(d) == c
  {
    (c as int - 48) as nat
  }

  /** `n.toString()` for a non-negative integer: decimal digits without
      leading zeros. */
  function Decimal(n: nat): (r: string)
    ensures |r| >= 1 && AllDigits(r)
    ensures r[0] == '0' ==> n == 0
    ensures |r| == 1 <==> n < 10
    ensures |r| <= 2 <==> n < 100
    decreases n
  {
    if n < 10 then [DigitChar(n)]
    else
      var r' := Decimal(n / 10);
      assert |r'| == 1 <==> n / 10 < 10;
      r' + [DigitChar(n % 10)]
  }

  /** The value of a digit string; the reference reading of `Decimal`. */
  function ParseDecimal(s: string): nat
    requires AllDigits(s)
  {
    if s == [] then 0
    else ParseDecimal(s[..|s| - 1]) * 10 + DigitValue(s[|s| - 1])
  }

  /** Reading back what `Decimal` writes gives the number again. */
  lemma {:induction false} ParseDecimalOfDecimal(n: nat)
    ensures ParseDecimal(Decimal(n)) == n
    decreases n
  {
    var r := Decimal(n);
    if n >= 10 {
      ParseDecimalOfDecimal(n / 10);
      assert r[..|r| - 1] == Decimal(n / 10);
      assert DigitValue(r[|r| - 1]) == n % 10;
    } else {
      assert DigitValue(r[0]) == n;
      assert r[..0] == [];
    }
  }

  /** `s.padStart(width, fill)` with a one-character filler: `fill` is
      repeated in front of `s` until the result is `width` long; a string
      already that long is returned unchanged. */
  function PadStart(s: string, width: nat, fill: char): (r: string)
    ensures |r| == if |s| >= width then |s| else width
    ensures r[|r| - |s|..] == s
    ensures forall k :: 0 <= k < |r| - |s| ==> r[k] == fill
    decreases width - |s|
  {
    if |s| >= width then s else PadStart([fill] + s, width, fill)
  }

  /** Leading zeros do not change the value of a digit string. */
  lemma {:induction false} ParseDecimalLeadingZeros(z: string, s: string)
    requires forall k :: 0 <= k < |z| ==> z[k] == '0'
    requires AllDigits(s)
    ensures AllDigits(z + s)
    ensures ParseDecimal(z + s) == ParseDecimal(s)
    decreases |s|
  {
    if s == [] {
      ParseDecimalAllZeros(z);
      assert z + s == z;
    } else {
      var t := z + s;
      assert t[..|t| - 1] == z + s[..|s| - 1];
      assert t[|t| - 1] == s[|s| - 1];
      ParseDecimalLeadingZeros(z, s[..|s| - 1]);
    }
  }

  lemma {:induction false} ParseDecimalAllZeros(z: string)
    requires forall k :: 0 <= k < |z| ==> z[k] == '0'
    ensures AllDigits(z) && ParseDecimal(z) == 0
    decreases |z|
  {
    if z != [] {
      ParseDecimalAllZeros(z[..|z| - 1]);
    }
  }
}

=== FILE: time_format.dfy ===
/** `formatTime` of the chat view: the elapsed recording time, a whole
    number of seconds, shown as minutes and seconds each padded to two
    digits. The counter starts at 0 and only ever grows by 1, so the
    argument is a natural number and JavaScript's floor division and
    remainder agree with Dafny's. */
module TimeFormat {
  import opened Text

  /** Two-digit zero padding, `n.toString().padStart(2, '0')`. */
  function Pad2(n: nat): string {
    PadStart(Decimal(n), 2, '0')
  }

  function FormatTime(seconds: nat): (r: string)
    ensures |r| >= 5 && r[|r| - 3] == ':'
  {
    Pad2(seconds / 60) + ":" + Pad2(seconds % 60)
  }

  /** The shape `FormatTime` produces: a run of digits, a colon, two
      digits. */
  predicate IsClock(t: string) {
    && |t| >= 4
    && t[|t| - 3] == ':'
    && AllDigits(t[..|t| - 3])
    && AllDigits(t[|t| - 2..])
  }

  /** The minutes field of a clock string. */
  function Minutes(t: string): nat {
    if IsClock(t) then ParseDecimal(t[..|t| - 3]) else 0
  }

  /** The seconds field of a clock string. */
  function Seconds(t: string): nat {
    if IsClock(t) then ParseDecimal(t[|t| - 2..]) else 0
  }

  /** Reads a clock string back into seconds; the inverse of
      `FormatTime`. */
  function ParseTime(t: string): nat {
    Minutes(t) * 60 + Seconds(t)
  }

  /** Padding to two places puts one zero before a single digit and leaves
      longer numbers alone. */
  lemma Pad2Shape(n: nat)
    ensures Pad2(n) == (if n < 10 then "0" else "") + Decimal(n)
  {
    var d := Decimal(n);
    if n < 10 {
      assert PadStart(d, 2, '0') == PadStart(['0'] + d, 2, '0');
    } else {
      assert "" + d == d;
    }
  }

  /** A padded number reads back as the number, and takes two places below
      100. */
  lemma Pad2Value(n: nat)
    ensures AllDigits(Pad2(n)) && ParseDecimal(Pad2(n)) == n
    ensures |Pad2(n)| >= 2
    ensures |Pad2(n)| == 2 <==> n < 100
  {
    Pad2Shape(n);
    ParseDecimalOfDecimal(n);
    ParseDecimalLeadingZeros(if n < 10 then "0" else "", Decimal(n));
  }

  /** Splitting a joined clock string gives back its two fields. */
  lemma ClockSplit(m: string, sec: string)
    requires AllDigits(m) && |m| >= 1 && AllDigits(sec) && |sec| == 2
    ensures var t := m + ":" + sec;
      IsClock(t) && t[..|t| - 3] == m && t[|t| - 2..] == sec
  {
    var t := m + ":" + sec;
    assert t[..|t| - 3] == m;
    assert t[|t| - 2..] == sec;
  }

  /** Reading the fields of a joined clock string. */
  lemma ClockFields(m: string, sec: string)
    requires AllDigits(m) && |m| >= 1 && AllDigits(sec) && |sec| == 2
    ensures Minutes(m + ":" + sec) == ParseDecimal(m)
    ensures Seconds(m + ":" + sec) == ParseDecimal(sec)
  {
    ClockSplit(m, sec);
  }

  /** The display is a clock string whose seconds field holds the seconds
      past the minute, always below 60, and whose minutes field holds the
      whole minutes. */
  lemma FormatTimeFields(seconds: nat)
    ensures IsClock(FormatTime(seconds))
    ensures Seconds(FormatTime(seconds)) == seconds % 60 < 60
    ensures Minutes(FormatTime(seconds)) == seconds / 60
  {
    var m := Pad2(seconds / 60);
    var sec := Pad2(seconds % 60);
    Pad2Value(seconds / 60);
    Pad2Value(seconds % 60);
    ClockSplit(m, sec);
    ClockFields(m, sec);
  }

  /** Reading the display back gives the elapsed seconds. */
  lemma FormatTimeRoundTrip(seconds: nat)
    ensures ParseTime(FormatTime(seconds)) == seconds
  {
    FormatTimeFields(seconds);
  }

  /** The display is exactly five characters (`mm:ss`) for less than
      100 minutes, and longer from then on. */
  lemma FormatTimeLength(seconds: nat)
    ensures |FormatTime(seconds)| == 5 <==> seconds < 6000
  {
    Pad2Value(seconds / 60);
    Pad2Value(seconds % 60);
  }
}

=== FILE: wrappers.dfy ===
/** Small failure-carrying datatypes shared by the model.

    Every asynchronous call of the client (an HTTP request, the microphone
    permission prompt) either resolves with a payload or rejects with an
    error whose `message` is a string; `Outcome` is that pair of cases. */
module Wrappers {

  /** A JavaScript value that may be null/undefined. */
  datatype Option<+T> = None | Some(value: T)

  /** How a promise settles: fulfilled with a payload, or rejected with an
      error message. */
  datatype Outcome<+T> = Ok(value: T) | Err(message: string)
}
